=== FILE: README.md ===
# business-date-parser, modelled in Dafny

`index.js` turns the short inputs typed into business forms into JavaScript
`Date` values. There are three entry points:

- `parseDate` runs a table of date rules, in order: `c`, `t`, `y`, `f` and
  `l` (current, tomorrow, yesterday, first and last day of the month), `+N`
  and `-N` days, `DD`, `MM/DD`, `MM/DD/YY[YY]` and `YYYY-MM-DD`. A catch-all
  rule hands everything else to the host's own date parsing.
- `parseTime` runs a table of time rules, in order: `c`, `-N` and `+N`
  minutes, a run of one to four digits with an optional meridiem, a liberal
  `H[:M[:S[.ms]]] [ap]` clock, and an `xxx` rule that again defers to the
  host.
- `parseDateAndTime` cuts its input at the first space. It parses the two
  parts with `parseDate` and `parseTime`, and copies the clock of the time
  onto the day of the date.

The helpers `calculateFullYear`, `adjustForBusinessHours` and
`adjustForMeridiem` choose the century of a two-digit year and the
afternoon reading of a bare hour.

The model is a set of pure functions over strings. "Now" is an explicit,
valid civil date-time. Each regular expression becomes a hand-written
recogniser that returns the groups its pattern captures. Each handler
becomes a function of those groups and now. The handlers call the
`Date` setters `setDate`, `setMonth`, `setFullYear`, `setHours` and
`setMinutes`, which the model reproduces with the ECMAScript day-number
arithmetic (`MakeDay`, `MakeTime`, `MakeDate`). Out-of-range fields
therefore roll over exactly as they do in JavaScript: `setMonth` on the
31st of a month can land in the next month, and hour 24 is the next day.

Modules:

- `Chars`: digits, `parseInt`, trimming, `indexOf`.
- `Patterns`: the character classes and small pieces shared by the
  regular expressions.
- `RuleTable`: the generic first-match loop.
- `Calendar`: the `Date` arithmetic.
- `Values`: inputs and results.
- `Heuristics`: the three helper functions.
- `DateParser`, `TimeParser` and `DateAndTime`: the three entry points.
- `DateExamples`, `TimeExamples` and `DateAndTimeExamples`: the library's
  test inputs, worked through the model.

Where the code and the library's own description of it differ, the model
follows the code:

- There are no user rules and no reject rules.
- There is no 8-digit date rule, no ISO time with a numeric offset, and no
  "looks ISO" detection in `parseDateAndTime`.
- Day-of-month and month values are not clamped to the month's length;
  JavaScript rolls them over (on the 10th of a month, `9/31` lands on 1 October).
- A `p` meridiem adds 12 to any hour, so `12 PM` is hour 24. That is 00:xx
  of the next day, although the test suite expects 12
  (tests/dates.test.js:206-208).
- An `a` meridiem never subtracts 12.
- `parseDate`'s catch-all accepts every string, the empty one included, so
  `parseDate` never returns `null`.
- With `preferTime`, an input that holds a space is still split at the
  space; the whole input is not tried as a time first.
- `parseDateAndTime` has no shortcut for `c` and no fallback that reads an
  unparsable date part as a time.

Because the handlers set the year and the month before the day, on a
current date whose day the target month lacks the result rolls into the
following month. The library's tests that expect 26 April therefore get
26 May when run on the 31st of a month:
- the date tests for `4/26`, `4/26/`, `4-26`, `4/26/1988`, `4/26/88`,
  `4-26-1988` and `1988-04-26` (tests/dates.test.js:102-105, 107-110,
  112-115, 117-119, 121-123, 129-131, 133-135);
- the date-and-time test for `4/26` (tests/dates.test.js:218-221);
- the test for `9` with the default date `1988-04-26`
  (tests/dates.test.js:234-243).

The model proves both outcomes for `4/26`, `4/26/88` and the default-date
case.

An Invalid Date object is not a valid `Date`. It is therefore turned into
its text, `Invalid Date`, and parsed like any other string (the input
`InvalidDate` of the model).

## Model

| member | source | states |
|---|---|---|
| Heuristics.ShortYear | index.js:2 | for a four-digit year, the number `substring(2)` reads is the year modulo 100 |
| Heuristics.CalculateFullYear | index.js:1-6 | the result is the input prefixed by `19` or `20`, and it is `19` exactly when the input exceeds the current short year plus ten |
| Heuristics.FullYearOfTwoDigits | index.js:1-6 | the value of the prefixed year is 1900 + v or 2000 + v, depending on the ten-year window |
| Heuristics.SlidingWindow | index.js:1-6 | for current years 2000 to 2088 the chosen year keeps the two digits and lies within 89 years before to 10 years after the current year |
| Heuristics.AdjustForBusinessHours | index.js:27-33 | 12 is added exactly when the hour is 1 to 6, so the result never lies in 1 to 6 |
| Heuristics.BusinessHoursIdempotent | index.js:27-33 | adjusting an already adjusted hour changes nothing |
| Heuristics.AdjustForMeridiem | index.js:35-43 | 12 is added exactly for a `p` meridiem, or for no meridiem, no leading zero and an hour of 1 to 6; a `p` hour is at least 12 |
| Heuristics.MeridiemExamples | index.js:35-43 | `2` is 14, `02` is 2, `15` is 15, `2a` is 2, `2pm` is 14, `12 PM` is 24 and `12 am` is 12 |
| RuleTable.FirstMatch | index.js:199-206 | the result is None exactly when no rule accepts; otherwise it is the position of an accepting rule that no earlier rule precedes, with that rule's token |
| RuleTable.FirstMatchAt | index.js:297-304 | a rule that accepts, with no earlier rule accepting, is the one chosen |
| RuleTable.FirstMatchIgnoresLaterRules | index.js:199-206 | once a rule accepts, appending rules changes nothing |
| Calendar.MakeDay | index.js:120 | the day number of `MakeDay(y, m, d)` is the first of the normalised month plus d - 1; in-range fields give that calendar date |
| Calendar.AddDays | index.js:93 | adding n days moves the day number by n and keeps a valid date |
| Calendar.SetDate | index.js:111 | `setDate(d)` lands d - 1 days after the first of the month, keeps the clock, and for an in-range d only changes the day |
| Calendar.SetMonth | index.js:156 | `setMonth(i)` lands on the current day of month i, where i outside 0 to 11 moves the year and a day past the month's end rolls into the next month; in range only the month changes; the clock is kept |
| Calendar.SetFullYear | index.js:172 | `setFullYear(y)` lands on the same month and day of year y, rolling 29 February of a common year into March; in range only the year changes; the clock is kept |
| Calendar.SetHours | index.js:94 | the time value is the start of the same day plus `MakeTime` of the four fields, which may roll into other days |
| Calendar.SetMinutes | index.js:227 | the hour is kept and the time value is the start of the day plus `MakeTime` of the hour and the three fields |
| Calendar.SetMinutesWholeMinute | index.js:227 | `setMinutes(m, 0, 0)` lands on a whole minute |
| Calendar.SetHoursToMidnight | index.js:94 | `setHours(0, 0, 0, 0)` is the start of the same day |
| Calendar.SetHoursInRange | index.js:279 | fields within their ranges are stored as given, on the same day |
| Calendar.DayNumberInjective | index.js:93-94 | two valid dates with the same day number are equal |
| Calendar.TimeValueInjective | index.js:93-94 | two valid moments with the same time value are equal |
| Chars.Trim | index.js:80 | the result neither starts nor ends with white space |
| Chars.TrimIsSlice | index.js:80 | the result is a slice of the input with only white space cut from either end |
| Chars.TrimIdempotent | index.js:80 | trimming twice is trimming once |
| Chars.IndexOf | index.js:59 | the result is the first position holding the character, and None exactly when no position holds it |
| Chars.ContainsAt | index.js:284 | the unanchored search of `/xxx.*/` succeeds when the pattern occurs at any position |
| Chars.ContainsOccurrence | index.js:284 | conversely, when the search succeeds there is an occurrence, and none earlier |
| Chars.Decimal | index.js:2 | `toString()` of a number is digits without a leading zero that `parseInt` reads back as the number |
| Chars.ParseDecimalAppend | index.js:5 | the value of two digit strings joined is the first scaled by the second's length plus the second |
| Chars.ParseDecimalLeadingZero | index.js:39 | a leading zero does not change the value `parseInt` reads |
| Patterns.SignedCount | index.js:126 | the pattern accepts exactly a sign followed by a digit, and yields the whole digit run after the sign |
| Patterns.SignedCountOf | index.js:135 | a sign, a digit run and text not starting with a digit yield that run |
| Patterns.MeridiemPrefix | index.js:268 | the optional `([ap]m?)` group is the longest meridiem at the start of the text, and absent exactly when the text does not start with `a` or `p` in either case |
| DateParser.DatePiece | index.js:153 | a digit group of the allowed width, a date separator and the rest; the three reassemble into the input |
| DateParser.MatchMonthDay | index.js:153 | any accepted text is `m` + separator + `d`, with one or two month digits and at most two day digits |
| DateParser.MatchMonthDayOf | index.js:153 | every string of that shape is accepted with its own groups |
| DateParser.MatchMonthDayYear | index.js:163 | any accepted text is month, separator, day, separator, and a year of 0 or 2 to 4 digits |
| DateParser.MatchMonthDayYearOf | index.js:163 | every string of that shape is accepted with its own groups |
| DateParser.MatchYearMonthDay | index.js:181 | any accepted text is four year digits, separator, month, separator and day |
| DateParser.MatchYearMonthDayOf | index.js:181 | every string of that shape is accepted with its own groups |
| DateParser.Recognise | index.js:82-197 | the catch-all accepts every text as itself, and only the catch-all yields host text |
| DateParser.LastDayOfMonth | index.js:120 | day 0 of the next month is the length of the current month, read through the constructor's two-digit-year mapping |
| DateParser.DayZeroIsLastDay | index.js:120 | day 0 of a month is the last day of the previous month |
| DateParser.ConstructorYearLeap | index.js:120 | the constructor's year mapping (0 to 99 as 1900 to 1999) does not change leapness, except for year 0 |
| DateParser.TokenYear | index.js:165-173 | a year group is set exactly when present; three or four digits are used as written |
| DateParser.TokenYearMeaning | index.js:165-173 | no year keeps the current year; two digits follow the century window of `calculateFullYear` |
| DateParser.StartOfDay | index.js:146-148 | `setDate(d)` then midnight: d - 1 days after the first of the current month, and the same date with day d when d is in range |
| DateParser.StartOfMonthDay | index.js:155-158 | `setMonth`, `setDate` and midnight land on the requested date when no field rolls over |
| DateParser.Interpret | index.js:82-197 | every handler yields a valid moment except the catch-all, which yields host text |
| DateParser.ParseDate | index.js:75-80 | a valid `Date` passes through; every other input yields a result, and a computed moment is valid |
| DateParser.FirstAcceptingRuleDecides | index.js:199-206 | the first accepting rule decides the result for the trimmed text |
| DateParser.NativeExactlyWhenNoPatternAccepts | index.js:191-206 | the result is host text exactly when none of the eleven patterns accepts, and it is then the trimmed text |
| DateParser.PatternBeatsHost | index.js:199-206 | if any pattern accepts, the result is not host text |
| DateParser.SurroundingSpaceIgnored | index.js:80 | surrounding white space does not change the result |
| DateParser.WordsAreLeftToTheHost | index.js:82-197 | text of two or more characters that starts with neither a digit nor a sign goes to the host |
| DateParser.HandlersYieldMidnight | index.js:89-190 | every rule but `c` and the catch-all yields midnight |
| DateParser.LetterRecognised | index.js:83-124 | each letter, in either case, is taken by its own rule and by no earlier rule |
| DateParser.LetterToken | index.js:83-124 | a single letter is handled by its own rule |
| DateParser.CurrentIsNow | index.js:83-88 | `c` is now, clock included |
| DateParser.TomorrowIsNextDay | index.js:89-97 | `t` is midnight one day after today |
| DateParser.YesterdayIsPreviousDay | index.js:98-106 | `y` is midnight one day before today |
| DateParser.FirstDayOfMonth | index.js:107-115 | `f` is midnight on the first of the current month |
| DateParser.LastDayIsMonthEnd | index.js:116-124 | `l` is midnight on the last day of the current month |
| DateParser.SignedCountRecognised | index.js:125-142 | `+N` and `-N` are taken by their own rule and by no earlier rule |
| DateParser.ShiftMeaning | index.js:125-142 | `+N` and `-N` are midnight N days after and before today |
| DateParser.RelativeDays | index.js:125-142 | the parsed `±N` lies N days from today, at midnight |
| DateParser.BareDigitsRecognised | index.js:143-151 | one or two digits are taken by the day-of-month rule and by no earlier rule |
| DateParser.BareDigitsAreDayOfMonth | index.js:143-151 | one or two digits are a day of the current month, never a month, rolling over when out of range |
| DateParser.MonthDayRecognised | index.js:152-161 | `MM/` and `MM/DD` are taken by the month-day rule and by no earlier rule |
| DateParser.MonthDayMeaning | index.js:152-161 | `MM/DD` is midnight; it is that date of the current year when the month is 1 to 12, today's day exists in that month and the day fits it, so nothing rolls over; a missing day is the 1st |
| DateParser.SetMonthRollsOver | index.js:156 | a current day past the end of the target month rolls into the next month |
| DateParser.MonthDayRollsOver | index.js:155-157 | on the 31st, `MM/DD` for a shorter month lands in the following month |
| DateParser.MonthDayForm | index.js:152-161 | `MM/DD` text in range parses to midnight on that date of the current year |
| DateParser.StartOfYearMonthDay | index.js:184-187 | setting year, month and day in turn lands on that date when nothing rolls over |
| DateParser.MonthDayYearRecognised | index.js:162-179 | `MM/DD/[YY]YY` is taken by its rule and by no earlier rule |
| DateParser.MonthDayPrefixSkipsShortForms | index.js:125-161 | a month group, a separator and a tail that is not all digits pass every earlier rule |
| DateParser.MonthDayYearMeaning | index.js:162-179 | `MM/DD/[YY]YY` is midnight, on that date of the token's year (the current year when absent) when nothing rolls over |
| DateParser.MonthDayYearForm | index.js:162-179 | `MM/DD/YY[YY]` text in range parses to midnight on that date |
| DateParser.YearMonthDayRecognised | index.js:180-190 | `YYYY-MM-DD` is taken by its rule and by no earlier rule |
| DateParser.FourDigitsSkipShortForms | index.js:143-179 | a leading run of four digits is too long for the day, month-day and month-day-year patterns |
| DateParser.YearMonthDayMeaning | index.js:180-190 | `YYYY-MM-DD` is midnight on that date when nothing rolls over |
| DateParser.YearMonthDayForm | index.js:180-190 | `YYYY-MM-DD` text in range parses to midnight on that date |
| DateExamples.LateTwoDigitYear | tests/dates.test.js:121-123 | in any four-digit current year whose last two digits are below 78, the year group `88` is 1988 |
| DateExamples.EarlyTwoDigitYear | tests/dates.test.js:125-127 | in any four-digit current year whose last two digits are at least 8, the year group `18` is 2018 |
| DateExamples.MonthDayLateYear | tests/dates.test.js:121-123 | `parseDate("4/26/88")` is 26 April 1988 for every current date up to the 30th whose day also exists in its month of 1988, in such a year |
| DateExamples.MonthDayEarlyYear | tests/dates.test.js:125-127 | `parseDate("5-3-18")` is 3 May 2018 for every current date whose day exists in its month of 2018, in such a year |
| DateExamples.AprilRollsOverToMay | tests/dates.test.js:102-105 | on the 31st of any month, `parseDate("4/26")` is 26 May of the current year, not the 26 April the test expects |
| DateExamples.FebruaryRollsOverToMarch | index.js:155-157 | on any day February lacks, `parseDate("2/")` is 1 March of the current year |
| DateExamples.MonthDayLateYearOnThe31st | tests/dates.test.js:121-123 | on the 31st of any month, `parseDate("4/26/88")` is 26 May 1988, not the 26 April the test expects |
| DateExamples.AprilDayFromThe31st | index.js:184-187 | from the 31st of a month, setting a year, April and a day lands on that day of May |
| TimeParser.MatchDigitRun | index.js:240 | accepted text is one to four digits, white space and an optional meridiem, reassembling into the input |
| TimeParser.MatchDigitRunOf | index.js:240 | every string of that shape is accepted with its own groups |
| TimeParser.ReadGroup | index.js:268 | a group reads the longest digit run up to its width and then one optional separator |
| TimeParser.ReadGroupAt | index.js:268 | a group followed by text that does not continue it is read exactly |
| TimeParser.MatchClock | index.js:268 | the pattern accepts exactly the texts that start with a digit; the hour group is a prefix of one or two digits |
| TimeParser.ClockTokenOf | index.js:269-274 | empty groups count as 0 and the others as their `parseInt` values |
| TimeParser.Recognise | index.js:216-295 | the `xxx` rule accepts exactly the texts containing `xxx` and yields them as host text |
| TimeParser.SplitRun | index.js:246-259 | 1 or 2 digits are the hour; 3 and 4 digits split into a 1- or 2-digit hour and two minute digits |
| TimeParser.SplitRunValue | index.js:251-258 | the split loses nothing: hour × 100 + minutes is the run's value |
| TimeParser.Interpret | index.js:216-295 | every pattern yields a valid moment; only the `xxx` rule yields host text, which carries today's date |
| TimeParser.ParseTime | index.js:209-214 | a valid `Date` passes through; a result is never the date parser's host result, and a computed moment is valid |
| TimeParser.ApplyTimeRules | index.js:297-304 | the loop returns `null` exactly when no rule of the table accepts; a host result comes only from the `xxx` rule, after all five patterns rejected, and is the trimmed text with today's date; moments are valid |
| TimeParser.FirstAcceptingRuleDecides | index.js:297-304 | the first accepting rule decides the result |
| TimeParser.PatternsRejectExactly | index.js:216-282 | the five patterns all reject exactly the texts that are not `c`, not `±N` and do not start with a digit |
| TimeParser.NullExactlyWhenNoRuleAccepts | index.js:297-304 | `null` is returned exactly when no pattern accepts and the text has no `xxx` |
| TimeParser.HostExactlyForXxx | index.js:283-294 | host parsing happens exactly when no pattern accepts and the text holds `xxx`, and then it receives the trimmed text and today's date |
| TimeParser.XxxAnywhereIsHost | index.js:283-294 | an `xxx` at any position of text that no earlier pattern accepts sends the trimmed text, with today's date, to the host's parsing |
| TimeParser.PatternBeatsHost | index.js:297-304 | if any pattern accepts, the result is a moment |
| TimeParser.SurroundingSpaceIgnored | index.js:214 | surrounding white space does not change the result |
| TimeParser.CurrentTime | index.js:217-222 | `c` is now |
| TimeParser.MinutesBackMeaning | index.js:223-230 | `-N` is N minutes before now with seconds and milliseconds dropped |
| TimeParser.MinutesAheadMeaning | index.js:231-238 | `+N` is N minutes after now with seconds and milliseconds dropped |
| TimeParser.MinuteOffsets | index.js:223-238 | the parsed `±N` is N whole minutes from now's minute |
| TimeParser.DigitRunRecognised | index.js:239-266 | a digit run is taken by its rule and by no earlier rule |
| TimeParser.DigitRunMeaning | index.js:239-266 | a digit run sets today's clock to the adjusted hour and the split minutes, rolling over past 23 |
| TimeParser.ClockRecognised | index.js:267-282 | text starting with a digit that is no bare digit run is taken by the clock rule |
| TimeParser.LeadingDigitIsMoment | index.js:239-282 | text starting with a digit is always a moment |
| TimeParser.ClockMeaning | index.js:267-282 | the clock sets today's clock to the adjusted hour and the groups; hours 24 to 47 land on the next day |
| TimeParser.ClockWithSeconds | index.js:268 | `hh:mm:ss suffix` reads three groups and the suffix's meridiem |
| TimeParser.ClockWithMilliseconds | index.js:268 | `hh:mm:ss.fff suffix` reads four groups and the suffix's meridiem |
| TimeParser.ClockWithoutSuffix | index.js:268 | `hh:mm:ss` reads three groups and no meridiem |
| TimeParser.DigitsThenSeparator | index.js:240 | digits followed by a separator are no bare digit run |
| TimeExamples.ThreeDigitRun | tests/dates.test.js:198-200 | `parseTime("530")` is 17:30 today |
| TimeExamples.SingleDigitRun | tests/dates.test.js:170-172 | `parseTime("2")` is 14:00 today |
| TimeExamples.LeadingZeroRun | tests/dates.test.js:174-176 | `parseTime("02")` is 02:00 today |
| TimeExamples.MorningSuffix | tests/dates.test.js:182-184 | `2a` is a digit run with meridiem `a`, and `parseTime("2a")` is 02:00 today |
| TimeExamples.NoonClockScanned | tests/dates.test.js:206-208 | `12:42:49 PM` is read as 12, 42, 49 and `PM` |
| TimeExamples.NoonClockRollsOver | tests/dates.test.js:206-208 | 12 with `PM` is hour 24, which lands on 00:42:49 of the next day |
| TimeExamples.MillisecondClockScanned | tests/dates.test.js:210-212 | `08:22:34.028 CST` is read as 08, 22, 34, 028 and no meridiem |
| TimeExamples.MillisecondClockMeaning | tests/dates.test.js:210-212 | that clock is 08:22:34.028 today |
| DateAndTime.Split | index.js:52-63 | with a space, the date part is the text before the first space and the time part the text after it; otherwise the whole input is the date at `00:00:00`, or with `preferTime` the time on the default date or today |
| DateAndTime.Merge | index.js:68-72 | the result is computed exactly when the date is a moment and the time is a moment or `null`; a `null` time leaves the date unchanged |
| DateAndTime.ParseDateAndTime | index.js:45-73 | a valid `Date` passes through; a computed result is a valid moment; otherwise one of the two parts went to the host |
| DateAndTime.MergeKeepsDayTakesClock | index.js:68-70 | year, month and day come from the date, and hours, minutes, seconds and milliseconds from the time |
| DateAndTime.SpacedInput | index.js:59-63 | with a space, the date and time parts are the text around the first space, whatever `preferTime` says |
| DateAndTime.MidnightTextIsMidnight | index.js:53 | the default time part `00:00:00` is the start of today |
| DateAndTime.DateOnlyIsMidnight | index.js:52-70 | without a space or `preferTime`, the date part's moment is set to midnight |
| DateAndTime.PreferredTimeOnAnchor | index.js:54-70 | with `preferTime` and no space, the time's clock is put on the default date, or on today when none is supplied |
| DateAndTimeExamples.NineOnDefaultDate | tests/dates.test.js:234-243 | `9` with `preferTime` and default date `1988-04-26` is 09:00 on 26 April 1988 on any day up to the 30th whose day also exists in its month of 1988 |
| DateAndTimeExamples.NineOnDefaultDateOnThe31st | tests/dates.test.js:234-243 | on the 31st of any month the same call is 09:00 on 26 May 1988, not the 26 April the test expects |
| DateAndTimeExamples.DefaultDateParsedOnThe31st | index.js:180-190 | on the 31st of any month `parseDate("1988-04-26")` is the start of 26 May 1988 |
| DateAndTimeExamples.DateThenClock | tests/dates.test.js:214-216 | `1/1/2020 08:22:34.028 CST` is 08:22:34.028 on 1 January 2020 |
| DateAndTimeExamples.NoonOnNewYear | index.js:68-70 | `1/1/2020 12:42:49 PM` is 00:42:49 on 1 January 2020: the time rolled into the next day, but only its clock is copied |
| DateAndTimeExamples.SplitAtSpace | index.js:59-63 | the first space of `a + " " + b` is the one between the two, when `a` holds none |

## Left out

- ParseDate: does not model ECMAScript TimeClip, the limit of 8.64e15 ms on a time value. In JavaScript a shift such as `+200000000` days makes an Invalid Date; here it is a valid moment that many days ahead, and RelativeDays holds for every count.
- ParseDate: does not model the double precision of `parseInt`. Digit runs longer than 15 digits are read exactly here rather than rounded.
- ParseDate: the local time zone has no daylight-saving changes and no offset from UTC, so a `Date` and its civil fields correspond one to one.
- ParseDate: `null` and `undefined` inputs are not modelled; `input.toString()` throws on them. A number enters as its decimal text, which is what `toString()` gives it.
- ParseTime: does not model TimeClip or the precision of `parseInt` either, for the `±N` minute counts and the clock groups.
- ParseTime: uses the same local time without daylight-saving changes as ParseDate.
- ParseTime: `null` and `undefined` inputs are left out, as for ParseDate.
- DateParser.Interpret: the catch-all's `Date.parse(string) || new Date(string)` is the host's own date grammar, which is not part of this model; its result is the opaque `Native(text)`.
- TimeParser.Interpret: the `xxx` rule calls `systemParseDate`, a second time with today's date prefixed; its result is the opaque `NativeTime(text, today)`. `systemParseDate` (index.js:8-21) is not part of this model beyond that.
- ParseDateAndTime: when either part went to the host's parsing, the result is `HostDependent(date, time)`. In JavaScript `Date.parse` may return a number, on which `setHours` throws; `systemParseDate` may return the input string, on which `getHours` throws, or `undefined`, which leaves the date unchanged. Which of these happens depends on the host's grammar.
- ParseDateAndTime: `setHours` mutates the `Date` that `parseDate` returned, which is the caller's own object when `defaultDate` is a `Date`. The model returns a new value instead.
- ParseDateAndTime: a numeric `defaultDate` is not modelled. In JavaScript `0` and `NaN` are falsy, so `options.defaultDate || new Date()` falls back to today for them, while the model only has text and `Date` defaults. A text default is falsy exactly when it is empty, as `Supplied` states.
- `new Date()` is the explicit parameter `now` of every operation, a valid civil date-time; the clock is not modelled.

=== FILE: calendar.dfy ===
/** Civil calendar and clock arithmetic of the host's `Date` type, in local
    time. Day numbers follow the ECMAScript definitions (DayFromYear, MakeDay,
    MakeTime, MakeDate, sections 21.4.1.3 to 21.4.1.29 of ECMA-262): a
    setter that receives an out-of-range month, day, hour or minute rolls the
    excess over into the neighbouring unit instead of clamping it.
    Daylight-saving shifts are not modelled. */
module Calendar {

  const MsPerSecond: int := 1000
  const MsPerMinute: int := 60000
  const MsPerHour: int := 3600000
  const MsPerDay: int := 86400000

  predicate IsLeapYear(year: int) {
    year % 4 == 0 && (year % 100 != 0 || year % 400 == 0)
  }

  function DaysInYear(year: int): int {
    if IsLeapYear(year) then 366 else 365
  }

  function DaysInMonth(year: int, month: int): (n: int)
    requires 1 <= month <= 12
    ensures 28 <= n <= 31
  {
    if month == 2 then (if IsLeapYear(year) then 29 else 28)
    else if month == 4 || month == 6 || month == 9 || month == 11 then 30
    else 31
  }

  /** A calendar day; `month` counts from 1. */
  datatype Date = Date(year: int, month: int, day: int) {
    predicate Valid() {
      1 <= month <= 12 && 1 <= day <= DaysInMonth(year, month)
    }
  }

  /** A moment in local time, as the getters of a valid `Date` object report it. */
  datatype DateTime = DateTime(date: Date, hour: int, minute: int, second: int, millisecond: int) {
    predicate Valid() {
      && date.Valid()
      && 0 <= hour < 24 && 0 <= minute < 60 && 0 <= second < 60
      && 0 <= millisecond < 1000
    }
  }

  /** Number of days of `year` before the first of `month`. */
  function DaysBeforeMonth(year: int, month: int): int
    requires 1 <= month <= 12
  {
    var leap := if IsLeapYear(year) then 1 else 0;
    if month == 1 then 0
    else if month == 2 then 31
    else if month == 3 then 59 + leap
    else if month == 4 then 90 + leap
    else if month == 5 then 120 + leap
    else if month == 6 then 151 + leap
    else if month == 7 then 181 + leap
    else if month == 8 then 212 + leap
    else if month == 9 then 243 + leap
    else if month == 10 then 273 + leap
    else if month == 11 then 304 + leap
    else 334 + leap
  }

  /** Day number of the first of January of `year` (day 0 is 1970-01-01). */
  function DayFromYear(year: int): int {
    365 * (year - 1970) + (year - 1969) / 4 - (year - 1901) / 100 + (year - 1601) / 400
  }

  function FirstOfMonth(year: int, month: int): int
    requires 1 <= month <= 12
  {
    DayFromYear(year) + DaysBeforeMonth(year, month)
  }

  /** Day number of a calendar day. */
  function DayNumber(d: Date): int
    requires 1 <= d.month <= 12
  {
    FirstOfMonth(d.year, d.month) + d.day - 1
  }

  function MakeTime(hour: int, minute: int, second: int, millisecond: int): int {
    hour * MsPerHour + minute * MsPerMinute + second * MsPerSecond + millisecond
  }

  /** Local time value of a moment: milliseconds since 1970-01-01 00:00. */
  function TimeValue(t: DateTime): int
    requires 1 <= t.date.month <= 12
  {
    DayNumber(t.date) * MsPerDay + MakeTime(t.hour, t.minute, t.second, t.millisecond)
  }

  // ---------------------------------------------------------------------
  // Day-number facts

  /** A year holds as many days as DaysInYear says. */
  lemma YearStep(year: int)
    ensures DayFromYear(year + 1) == DayFromYear(year) + DaysInYear(year)
  {
    QuotientStep(year - 1969, 4, year % 4 == 0);
    QuotientStep(year - 1901, 100, year % 100 == 0);
    QuotientStep(year - 1601, 400, year % 400 == 0);
    LeapCount(year);
  }

  /** A year is a leap year by the count of 4, 100 and 400 it is a
      multiple of. */
  lemma LeapCount(year: int)
    ensures DaysInYear(year) == 365 + (if year % 4 == 0 then 1 else 0)
                                    - (if year % 100 == 0 then 1 else 0)
                                    + (if year % 400 == 0 then 1 else 0)
  {
    if year % 400 == 0 {
      assert year == 100 * (4 * (year / 400));
    }
    if year % 100 == 0 {
      assert year == 4 * (25 * (year / 100));
    }
  }

  /** Stepping `x` by one raises `x / d` by one exactly when `x + 1` is a
      multiple of `d`. */
  lemma QuotientStep(x: int, d: int, multiple: bool)
    requires d in {4, 100, 400}
    requires multiple <==> (x + 1) % d == 0
    ensures (x + 1) / d == x / d + (if multiple then 1 else 0)
  {
    // One case per divisor keeps the arithmetic linear.
    if d == 4 {
      assert x == (x / 4) * 4 + x % 4;
    } else if d == 100 {
      assert x == (x / 100) * 100 + x % 100;
    } else {
      assert x == (x / 400) * 400 + x % 400;
    }
  }

  function NextMonth(year: int, month: int): (r: (int, int))
    requires 1 <= month <= 12
    ensures 1 <= r.1 <= 12
  {
    if month == 12 then (year + 1, 1) else (year, month + 1)
  }

  function PreviousMonth(year: int, month: int): (r: (int, int))
    requires 1 <= month <= 12
    ensures 1 <= r.1 <= 12
  {
    if month == 1 then (year - 1, 12) else (year, month - 1)
  }

  /** Months follow each other without gaps in the day numbering. */
  lemma MonthStep(year: int, month: int)
    requires 1 <= month <= 12
    ensures var (y, m) := NextMonth(year, month);
            FirstOfMonth(y, m) == FirstOfMonth(year, month) + DaysInMonth(year, month)
  {
    if month == 12 {
      YearStep(year);
    }
  }

  lemma PreviousMonthStep(year: int, month: int)
    requires 1 <= month <= 12
    ensures var (y, m) := PreviousMonth(year, month);
            FirstOfMonth(year, month) == FirstOfMonth(y, m) + DaysInMonth(y, m)
  {
    var (y, m) := PreviousMonth(year, month);
    MonthStep(y, m);
  }

  // ---------------------------------------------------------------------
  // Normalisation: ECMAScript MakeDay

  /** The valid calendar day that is `day - 1` days after the first of
      (`year`, `month`); `day` may be any integer. */
  function Rebase(year: int, month: int, day: int): (r: Date)
    requires 1 <= month <= 12
    ensures r.Valid()
    ensures DayNumber(r) == FirstOfMonth(year, month) + day - 1
    decreases (if day < 1 then 1 - day else 0), (if day > 0 then day else 0)
  {
    if day < 1 then
      var (y, m) := PreviousMonth(year, month);
      PreviousMonthStep(year, month);
      Rebase(y, m, day + DaysInMonth(y, m))
    else if day > DaysInMonth(year, month) then
      var (y, m) := NextMonth(year, month);
      MonthStep(year, month);
      Rebase(y, m, day - DaysInMonth(year, month))
    else
      Date(year, month, day)
  }

  /** ECMAScript MakeDay(year, monthIndex, day) with a 0-based month index
      that may lie outside 0..11. */
  function MakeDay(year: int, monthIndex: int, day: int): (r: Date)
    ensures r.Valid()
    ensures DayNumber(r) == FirstOfMonth(year + monthIndex / 12, monthIndex % 12 + 1) + day - 1
    ensures 0 <= monthIndex < 12 && 1 <= day <= DaysInMonth(year, monthIndex + 1)
            ==> r == Date(year, monthIndex + 1, day)
  {
    assert 0 <= monthIndex < 12 ==> monthIndex / 12 == 0 && monthIndex % 12 == monthIndex;
    Rebase(year + monthIndex / 12, monthIndex % 12 + 1, day)
  }

  /** The calendar day `n` days after `d`. */
  function AddDays(d: Date, n: int): (r: Date)
    requires d.Valid()
    ensures r.Valid()
    ensures DayNumber(r) == DayNumber(d) + n
  {
    Rebase(d.year, d.month, d.day + n)
  }

  /** ECMAScript MakeDate: the moment `time` milliseconds after the start
      of day `d`; `time` may be negative or exceed one day. */
  function MakeDate(d: Date, time: int): (r: DateTime)
    requires d.Valid()
    ensures r.Valid()
    ensures TimeValue(r) == DayNumber(d) * MsPerDay + time
  {
    var days := time / MsPerDay;
    var within := time % MsPerDay;
    var seconds := within / MsPerSecond;
    var minutes := seconds / 60;
    var r := DateTime(AddDays(d, days), minutes / 60, minutes % 60, seconds % 60, within % MsPerSecond);
    assert within == (minutes / 60) * MsPerHour + (minutes % 60) * MsPerMinute
                     + (seconds % 60) * MsPerSecond + within % MsPerSecond;
    r
  }

  // ---------------------------------------------------------------------
  // Date.prototype setters (local time)

  /** `date.setDate(day)`. */
  function SetDate(t: DateTime, day: int): (r: DateTime)
    requires t.Valid()
    ensures r.Valid()
    ensures DayNumber(r.date) == FirstOfMonth(t.date.year, t.date.month) + day - 1
    ensures 1 <= day <= DaysInMonth(t.date.year, t.date.month) ==> r.date == t.date.(day := day)
    ensures r.hour == t.hour && r.minute == t.minute && r.second == t.second
            && r.millisecond == t.millisecond
  {
    assert (t.date.month - 1) / 12 == 0 && (t.date.month - 1) % 12 == t.date.month - 1;
    t.(date := MakeDay(t.date.year, t.date.month - 1, day))
  }

  /** `date.setMonth(monthIndex)`: keeps the day of the month, which rolls
      over when the new month is shorter. */
  function SetMonth(t: DateTime, monthIndex: int): (r: DateTime)
    requires t.Valid()
    ensures r.Valid()
    ensures DayNumber(r.date)
            == FirstOfMonth(t.date.year + monthIndex / 12, monthIndex % 12 + 1) + t.date.day - 1
    ensures 0 <= monthIndex < 12 && t.date.day <= DaysInMonth(t.date.year, monthIndex + 1)
            ==> r.date == t.date.(month := monthIndex + 1)
    ensures r.hour == t.hour && r.minute == t.minute && r.second == t.second
            && r.millisecond == t.millisecond
  {
    t.(date := MakeDay(t.date.year, monthIndex, t.date.day))
  }

  /** `date.setFullYear(year)`: keeps month and day; 29 February rolls over
      to 1 March in a common year. */
  function SetFullYear(t: DateTime, year: int): (r: DateTime)
    requires t.Valid()
    ensures r.Valid()
    ensures DayNumber(r.date) == FirstOfMonth(year, t.date.month) + t.date.day - 1
    ensures t.date.day <= DaysInMonth(year, t.date.month) ==> r.date == t.date.(year := year)
    ensures r.hour == t.hour && r.minute == t.minute && r.second == t.second
            && r.millisecond == t.millisecond
  {
    assert (t.date.month - 1) / 12 == 0 && (t.date.month - 1) % 12 == t.date.month - 1;
    t.(date := MakeDay(year, t.date.month - 1, t.date.day))
  }

  /** `date.setHours(hour, minute, second, millisecond)`. */
  function SetHours(t: DateTime, hour: int, minute: int, second: int, millisecond: int): (r: DateTime)
    requires t.Valid()
    ensures r.Valid()
    ensures TimeValue(r) == DayNumber(t.date) * MsPerDay + MakeTime(hour, minute, second, millisecond)
  {
    MakeDate(t.date, MakeTime(hour, minute, second, millisecond))
  }

  /** `date.setMinutes(minute, second, millisecond)`: the hour is kept. */
  function SetMinutes(t: DateTime, minute: int, second: int, millisecond: int): (r: DateTime)
    requires t.Valid()
    ensures r.Valid()
    ensures TimeValue(r) == DayNumber(t.date) * MsPerDay + MakeTime(t.hour, minute, second, millisecond)
  {
    MakeDate(t.date, MakeTime(t.hour, minute, second, millisecond))
  }

  /** `setMinutes(minute, 0, 0)` lands on a whole minute. */
  lemma SetMinutesWholeMinute(t: DateTime, minute: int)
    requires t.Valid()
    ensures SetMinutes(t, minute, 0, 0).second == 0
    ensures SetMinutes(t, minute, 0, 0).millisecond == 0
  {
    var r := SetMinutes(t, minute, 0, 0);
    var whole := DayNumber(t.date) * 1440 + t.hour * 60 + minute
                 - DayNumber(r.date) * 1440 - r.hour * 60 - r.minute;
    assert r.second * MsPerSecond + r.millisecond == whole * MsPerMinute;
  }

  /** The start of the day of `t`. */
  function Midnight(t: DateTime): (r: DateTime)
    requires t.Valid()
    ensures r.Valid()
  {
    DateTime(t.date, 0, 0, 0, 0)
  }

  /** `setHours(0, 0, 0, 0)` is the start of the same day. */
  lemma SetHoursToMidnight(t: DateTime)
    requires t.Valid()
    ensures SetHours(t, 0, 0, 0, 0) == Midnight(t)
  {
    var r := SetHours(t, 0, 0, 0, 0);
    assert TimeValue(r) == TimeValue(Midnight(t));
    TimeValueInjective(r, Midnight(t));
  }

  /** Fields within their ranges are stored as given: no rollover. */
  lemma SetHoursInRange(t: DateTime, hour: int, minute: int, second: int, millisecond: int)
    requires t.Valid()
    requires 0 <= hour < 24 && 0 <= minute < 60 && 0 <= second < 60 && 0 <= millisecond < 1000
    ensures SetHours(t, hour, minute, second, millisecond)
            == DateTime(t.date, hour, minute, second, millisecond)
  {
    var r := SetHours(t, hour, minute, second, millisecond);
    var kept := DateTime(t.date, hour, minute, second, millisecond);
    assert TimeValue(r) == TimeValue(kept);
    TimeValueInjective(r, kept);
  }

  // ---------------------------------------------------------------------
  // Uniqueness: a valid moment is determined by its time value

  lemma {:induction false} DayFromYearMonotone(a: int, b: int)
    requires a < b
    ensures DayFromYear(a) + DaysInYear(a) <= DayFromYear(b)
    decreases b - a
  {
    YearStep(a);
    if a + 1 < b {
      DayFromYearMonotone(a + 1, b);
    }
  }

  lemma DaysBeforeMonthMonotone(year: int, m: int, m': int)
    requires 1 <= m < m' <= 12
    ensures DaysBeforeMonth(year, m) + DaysInMonth(year, m) <= DaysBeforeMonth(year, m')
  {
  }

  lemma DayOfYearBound(d: Date)
    requires d.Valid()
    ensures DayFromYear(d.year) <= DayNumber(d) < DayFromYear(d.year) + DaysInYear(d.year)
  {
  }

  /** Distinct valid calendar days have distinct day numbers. */
  lemma DayNumberInjective(a: Date, b: Date)
    requires a.Valid() && b.Valid()
    requires DayNumber(a) == DayNumber(b)
    ensures a == b
  {
    DayOfYearBound(a);
    DayOfYearBound(b);
    if a.year < b.year {
      DayFromYearMonotone(a.year, b.year);
    } else if b.year < a.year {
      DayFromYearMonotone(b.year, a.year);
    }
    if a.month < b.month {
      DaysBeforeMonthMonotone(a.year, a.month, b.month);
    } else if b.month < a.month {
      DaysBeforeMonthMonotone(a.year, b.month, a.month);
    }
  }

  /** The clock fields of a valid moment can be read back from its time of day. */
  lemma ClockFields(hour: int, minute: int, second: int, millisecond: int)
    requires 0 <= hour < 24 && 0 <= minute < 60 && 0 <= second < 60 && 0 <= millisecond < 1000
    ensures var t := MakeTime(hour, minute, second, millisecond);
            && 0 <= t < MsPerDay
            && t % 1000 == millisecond
            && (t / 1000) % 60 == second
            && (t / 1000) / 60 % 60 == minute
            && (t / 1000) / 60 / 60 == hour
  {
    var t := MakeTime(hour, minute, second, millisecond);
    var secs := hour * 3600 + minute * 60 + second;
    assert t == secs * 1000 + millisecond;
    assert t / 1000 == secs && t % 1000 == millisecond;
    var mins := hour * 60 + minute;
    assert secs == mins * 60 + second;
    assert secs / 60 == mins && secs % 60 == second;
    assert mins / 60 == hour && mins % 60 == minute;
  }

  /** Distinct valid moments have distinct time values, so the contracts
      above, which fix the time value, fix the moment. */
  lemma TimeValueInjective(a: DateTime, b: DateTime)
    requires a.Valid() && b.Valid()
    requires TimeValue(a) == TimeValue(b)
    ensures a == b
  {
    var ta := MakeTime(a.hour, a.minute, a.second, a.millisecond);
    var tb := MakeTime(b.hour, b.minute, b.second, b.millisecond);
    ClockFields(a.hour, a.minute, a.second, a.millisecond);
    ClockFields(b.hour, b.minute, b.second, b.millisecond);
    var da, db := DayNumber(a.date), DayNumber(b.date);
    assert da == db;
    DayNumberInjective(a.date, b.date);
    assert ta == tb;
  }
}

=== FILE: chars.dfy ===
/** Character-level helpers shared by the recognisers: ASCII digits, the
    ECMAScript white-space set used by `String.prototype.trim` and by `\s`,
    decimal conversion as done by `parseInt(s, 10)` on digit strings, and the
    decimal rendering of an integer done by `Number.prototype.toString`. */
module Chars {
  import opened Wrappers

  predicate IsDigit(c: char) {
    '0' <= c <= '9'
  }

  predicate IsDigits(s: string) {
    forall i | 0 <= i < |s| :: IsDigit(s[i])
  }

  /** WhiteSpace and LineTerminator code points of ECMAScript: the characters
      removed by `trim()` and matched by `\s`. */
  predicate IsSpace(c: char) {
    || c == '\U{0009}' || c == '\U{000A}' || c == '\U{000B}' || c == '\U{000C}'
    || c == '\U{000D}' || c == '\U{0020}' || c == '\U{00A0}' || c == '\U{1680}'
    || ('\U{2000}' <= c <= '\U{200A}')
    || c == '\U{2028}' || c == '\U{2029}' || c == '\U{202F}' || c == '\U{205F}'
    || c == '\U{3000}' || c == '\U{FEFF}'
  }

  predicate AllSpace(s: string) {
    forall i | 0 <= i < |s| :: IsSpace(s[i])
  }

  function DigitValue(c: char): (v: nat)
    requires IsDigit(c)
    ensures v <= 9
  {
    c as int - '0' as int
  }

  function DigitChar(v: nat): (c: char)
    requires v <= 9
    ensures IsDigit(c) && DigitValue(c) == v
  {
    ('0' as int + v) as char
  }

  function Pow10(n: nat): (p: nat)
    ensures p >= 1
  {
    if n == 0 then 1 else 10 * Pow10(n - 1)
  }

  /** Value of the first `n` digits of `s`, read as a decimal number. */
  function DecimalPrefix(s: string, n: nat): nat
    requires n <= |s| && IsDigits(s)
  {
    if n == 0 then 0 else DecimalPrefix(s, n - 1) * 10 + DigitValue(s[n - 1])
  }

  /** `parseInt(s, 10)` on a non-empty string of ASCII digits (the empty
      string, which `parseInt` turns into NaN, is never passed by the parser). */
  function ParseDecimal(s: string): nat
    requires IsDigits(s)
  {
    DecimalPrefix(s, |s|)
  }

  /** A prefix value depends on nothing but the digits it reads. */
  lemma {:induction false} DecimalPrefixOfSamePrefix(s: string, t: string, n: nat)
    requires n <= |s| && n <= |t| && IsDigits(s) && IsDigits(t)
    requires s[..n] == t[..n]
    ensures DecimalPrefix(s, n) == DecimalPrefix(t, n)
  {
    if n > 0 {
      assert s[n - 1] == s[..n][n - 1] == t[..n][n - 1] == t[n - 1];
      assert s[..n - 1] == s[..n][..n - 1];
      assert t[..n - 1] == t[..n][..n - 1];
      DecimalPrefixOfSamePrefix(s, t, n - 1);
    }
  }

  /** A digit string of length n reads as less than 10 to the n. */
  lemma {:induction false} DecimalPrefixBound(s: string, n: nat)
    requires n <= |s| && IsDigits(s)
    ensures DecimalPrefix(s, n) < Pow10(n)
  {
    if n > 0 {
      DecimalPrefixBound(s, n - 1);
    }
  }

  /** Concatenating digit strings shifts the left part by the width of the
      right part. */
  lemma ParseDecimalAppend(a: string, b: string)
    requires IsDigits(a) && IsDigits(b)
    ensures IsDigits(a + b)
    ensures ParseDecimal(a + b) == ParseDecimal(a) * Pow10(|b|) + ParseDecimal(b)
  {
    assert IsDigits(a + b) by {
      forall i | 0 <= i < |a + b| ensures IsDigit((a + b)[i]) {
        if i < |a| { assert (a + b)[i] == a[i]; } else { assert (a + b)[i] == b[i - |a|]; }
      }
    }
    AppendPrefix(a, b, |b|);
  }

  /** The induction behind ParseDecimalAppend: the first `|a| + k` digits of
      `a + b` read as `a` shifted by k places plus the first k digits of `b`. */
  lemma {:induction false} AppendPrefix(a: string, b: string, k: nat)
    requires IsDigits(a) && IsDigits(b) && IsDigits(a + b) && k <= |b|
    ensures DecimalPrefix(a + b, |a| + k) == ParseDecimal(a) * Pow10(k) + DecimalPrefix(b, k)
  {
    if k == 0 {
      assert (a + b)[..|a|] == a[..|a|];
      DecimalPrefixOfSamePrefix(a + b, a, |a|);
    } else {
      AppendPrefix(a, b, k - 1);
      assert (a + b)[|a| + k - 1] == b[k - 1];
      MulShift(ParseDecimal(a), Pow10(k - 1), DecimalPrefix(b, k - 1));
    }
  }

  lemma MulShift(x: int, p: int, y: int)
    ensures (x * p + y) * 10 == x * (p * 10) + y * 10
  {
  }

  /** Leading zeros do not change the value `parseInt` reads. */
  lemma {:induction false} ParseDecimalLeadingZero(s: string)
    requires IsDigits(s)
    ensures IsDigits("0" + s) && ParseDecimal("0" + s) == ParseDecimal(s)
  {
    ParseDecimalAppend("0", s);
  }

  /** Decimal rendering of a natural number, as `toString()` writes it. */
  function Decimal(n: nat): (s: string)
    ensures IsDigits(s) && |s| >= 1
    ensures ParseDecimal(s) == n
    ensures s[0] != '0' || n == 0
    decreases n
  {
    if n < 10 then
      assert DecimalPrefix([DigitChar(n)], 0) == 0;
      [DigitChar(n)]
    else
      var front := Decimal(n / 10);
      var last := [DigitChar(n % 10)];
      ParseDecimalAppend(front, last);
      assert DecimalPrefix(last, 0) == 0 && Pow10(1) == 10;
      assert (front + last)[0] == front[0];
      front + last
  }

  /** A four-digit number renders as four characters whose last two spell
      the number modulo 100. */
  lemma FourDigitSuffix(n: nat)
    requires 1000 <= n <= 9999
    ensures |Decimal(n)| == 4
    ensures ParseDecimal(Decimal(n)[2..]) == n % 100
  {
    var c, d := DigitChar((n / 10) % 10), DigitChar(n % 10);
    assert n / 100 / 10 == n / 1000 < 10 && n / 10 / 10 == n / 100 && n / 100 >= 10;
    assert Decimal(n / 1000) == [DigitChar(n / 1000)];
    assert Decimal(n / 100) == Decimal(n / 1000) + [DigitChar((n / 100) % 10)];
    assert Decimal(n / 10) == Decimal(n / 100) + [c];
    assert Decimal(n) == Decimal(n / 10) + [d];
    var tail := Decimal(n)[2..];
    assert tail == [c, d];
    assert DecimalPrefix(tail, 1) == (n / 10) % 10;
    assert n % 100 == ((n / 10) % 10) * 10 + n % 10;
  }

  /** Length of the run of ASCII digits at the start of `s`. */
  function DigitPrefixLength(s: string): (k: nat)
    ensures k <= |s|
    ensures IsDigits(s[..k])
    ensures k < |s| ==> !IsDigit(s[k])
  {
    if |s| > 0 && IsDigit(s[0]) then
      var k := 1 + DigitPrefixLength(s[1..]);
      assert s[..k] == [s[0]] + s[1..][..k - 1];
      k
    else 0
  }

  /** The digit run of a digit string followed by a non-digit is that string. */
  lemma {:induction false} DigitPrefixOfJoin(a: string, rest: string)
    requires IsDigits(a)
    requires |rest| == 0 || !IsDigit(rest[0])
    ensures DigitPrefixLength(a + rest) == |a|
    decreases |a|
  {
    if |a| == 0 {
      assert a + rest == rest;
    } else {
      assert (a + rest)[1..] == a[1..] + rest;
      DigitPrefixOfJoin(a[1..], rest);
    }
  }

  /** Length of the run of white space at the start of `s`. */
  function SpacePrefixLength(s: string): (k: nat)
    ensures k <= |s|
    ensures AllSpace(s[..k])
    ensures k < |s| ==> !IsSpace(s[k])
  {
    if |s| > 0 && IsSpace(s[0]) then
      var k := 1 + SpacePrefixLength(s[1..]);
      assert s[..k] == [s[0]] + s[1..][..k - 1];
      k
    else 0
  }

  /** `s` with its leading white space removed. */
  function TrimStart(s: string): (r: string)
    ensures |r| <= |s| && r == s[|s| - |r|..]
    ensures AllSpace(s[..|s| - |r|])
    ensures |r| > 0 ==> !IsSpace(r[0])
  {
    s[SpacePrefixLength(s)..]
  }

  /** `s` with its trailing white space removed. */
  function TrimEnd(s: string): (r: string)
    ensures |r| <= |s| && r == s[..|r|]
    ensures AllSpace(s[|r|..])
    ensures |r| > 0 ==> !IsSpace(r[|r| - 1])
    decreases |s|
  {
    if |s| > 0 && IsSpace(s[|s| - 1]) then
      var r := TrimEnd(s[..|s| - 1]);
      assert s[|r|..] == s[..|s| - 1][|r|..] + [s[|s| - 1]];
      r
    else s
  }

  /** `String.prototype.trim`. */
  function Trim(s: string): (r: string)
    ensures |r| > 0 ==> !IsSpace(r[0]) && !IsSpace(r[|r| - 1])
  {
    TrimEnd(TrimStart(s))
  }

  /** Trimming only removes white space: what is left is a slice of the
      input with nothing but white space around it. */
  lemma TrimIsSlice(s: string)
    ensures var start := |s| - |TrimStart(s)|;
            && start + |Trim(s)| <= |s|
            && Trim(s) == s[start..start + |Trim(s)|]
            && AllSpace(s[..start])
            && AllSpace(s[start + |Trim(s)|..])
  {
    var t := TrimStart(s);
    var start := |s| - |t|;
    var r := TrimEnd(t);
    assert t[|r|..] == s[start + |r|..];
  }

  /** A string with no white space at either end is left alone by trim. */
  lemma TrimUnchanged(s: string)
    requires |s| > 0 ==> !IsSpace(s[0]) && !IsSpace(s[|s| - 1])
    ensures Trim(s) == s
  {
  }

  /** Trim is idempotent. */
  lemma TrimIdempotent(s: string)
    ensures Trim(Trim(s)) == Trim(s)
  {
    TrimUnchanged(Trim(s));
  }

  /** `s.indexOf(c)`: the position of the first occurrence of `c`. */
  function IndexOf(s: string, c: char): (r: Option<nat>)
    ensures r.Some? ==> r.value < |s| && s[r.value] == c
    ensures r.Some? ==> forall j | 0 <= j < r.value :: s[j] != c
    ensures r.None? <==> forall j | 0 <= j < |s| :: s[j] != c
  {
    if |s| == 0 then None
    else if s[0] == c then Some(0)
    else
      match IndexOf(s[1..], c)
      case None => None
      case Some(i) => Some(i + 1)
  }

  /** `s` contains `pattern` as a contiguous piece. */
  predicate Contains(s: string, pattern: string)
    decreases |s|
  {
    if |s| < |pattern| then false
    else s[..|pattern|] == pattern || Contains(s[1..], pattern)
  }

  /** `pattern` occurs in `s` at position `i`. */
  predicate OccursAt(s: string, pattern: string, i: nat) {
    i + |pattern| <= |s| && s[i..i + |pattern|] == pattern
  }

  /** An occurrence at any position makes `Contains` hold. */
  lemma {:induction false} ContainsAt(s: string, pattern: string, i: nat)
    requires OccursAt(s, pattern, i)
    ensures Contains(s, pattern)
    decreases i
  {
    if i > 0 {
      assert s[1..][i - 1..i - 1 + |pattern|] == s[i..i + |pattern|];
      ContainsAt(s[1..], pattern, i - 1);
    }
  }

  /** The converse: where `Contains` holds there is an occurrence, and this
      is the first one. */
  lemma {:induction false} ContainsOccurrence(s: string, pattern: string) returns (i: nat)
    requires Contains(s, pattern)
    ensures OccursAt(s, pattern, i)
    ensures forall j | 0 <= j < i :: !OccursAt(s, pattern, j)
    decreases |s|
  {
    if s[..|pattern|] == pattern {
      i := 0;
    } else {
      var k := ContainsOccurrence(s[1..], pattern);
      i := k + 1;
      assert s[i..i + |pattern|] == s[1..][k..k + |pattern|];
      forall j | 0 <= j < i
        ensures !OccursAt(s, pattern, j)
      {
        if j == 0 {
          assert s[0..|pattern|] == s[..|pattern|];
        } else {
          assert j + |pattern| <= |s|;
          assert !OccursAt(s[1..], pattern, j - 1);
          assert s[j..j + |pattern|] == s[1..][j - 1..j - 1 + |pattern|];
        }
      }
    }
  }
}

=== FILE: date_and_time.dfy ===
/** `parseDateAndTime`: the input is cut at its first space into a date part
    for `parseDate` and a time part for `parseTime`, and the clock of the
    time is copied onto the day of the date. */
module DateAndTime {
  import opened Wrappers
  import opened Chars
  import opened Calendar
  import opened Values
  import DateParser
  import TimeParser
  import Heuristics

  /** The options object. `defaultDate` is None when it is `null` or
      absent. */
  datatype Options = Options(preferTime: bool, defaultDate: Option<Input>) {
    predicate Valid() {
      defaultDate.Some? ==> defaultDate.value.Valid()
    }
  }

  /** What a caller gets without options. */
  const NoOptions := Options(false, None)

  /** The time part used when the input holds no space and no time is
      preferred. */
  const MidnightText := "00:00:00"

  /** JavaScript truthiness of `defaultDate`: every `Date` object is
      truthy, a string only when it is not empty. */
  predicate Supplied(defaultDate: Option<Input>) {
    match defaultDate
    case None => false
    case Some(Text(t)) => |t| > 0
    case Some(_) => true
  }

  /** `options.defaultDate || new Date()`. */
  function Anchor(options: Options, now: DateTime): (r: Input)
    requires options.Valid() && now.Valid()
    ensures r.Valid()
  {
    if Supplied(options.defaultDate) then options.defaultDate.value else Given(now)
  }

  /** The argument of `parseDate` and the argument of `parseTime`. */
  datatype Parts = Parts(date: Input, time: string)

  /** The split of the trimmed input. A space cuts it in two whatever the
      options say; without one, the whole input is the date at midnight, or
      with `preferTime` the time of day on the anchor date. */
  function Split(s: string, options: Options, now: DateTime): (r: Parts)
    requires options.Valid() && now.Valid()
    ensures r.date.Valid()
    ensures IndexOf(s, ' ').Some? ==>
              && r.date.Text? && s == r.date.text + " " + r.time
              && (forall j | 0 <= j < |r.date.text| :: r.date.text[j] != ' ')
    ensures IndexOf(s, ' ').None? && !options.preferTime ==> r.date == Text(s) && r.time == MidnightText
    ensures IndexOf(s, ' ').None? && options.preferTime ==> r.date == Anchor(options, now) && r.time == s
  {
    match IndexOf(s, ' ')
    case Some(i) =>
      assert s == s[..i] + " " + s[i + 1..];
      Parts(Text(s[..i]), s[i + 1..])
    case None =>
      if options.preferTime then Parts(Anchor(options, now), s)
      else Parts(Text(s), MidnightText)
  }

  /** What `parseDateAndTime` hands back: a moment the model computes, or
      the results of the two parsers when one of them went to the host's own
      date parsing, whose value this model does not know. */
  datatype Combined =
    | Exact(moment: DateTime)
    | HostDependent(date: Outcome, time: Option<Outcome>)

  /** `if (parsedTime) parsedDate.setHours(...)`: a time copies its hours,
      minutes, seconds and milliseconds onto the date; a `null` time leaves
      the date as it is. */
  function Merge(date: Outcome, time: Option<Outcome>): (r: Combined)
    requires date.Moment? ==> date.moment.Valid()
    ensures r.Exact? <==> date.Moment? && (time.None? || time.value.Moment?)
    ensures r.Exact? ==> r.moment.Valid()
    ensures r.HostDependent? ==> r == HostDependent(date, time)
    ensures date.Moment? && time.None? ==> r == Exact(date.moment)
  {
    match (date, time)
    case (Moment(d), None) => Exact(d)
    case (Moment(d), Some(Moment(t))) => Exact(SetHours(d, t.hour, t.minute, t.second, t.millisecond))
    case _ => HostDependent(date, time)
  }

  /** `parseDateAndTime(input, options)`: a valid `Date` passes through;
      anything else is turned into a string, trimmed, split, and the two
      parts are parsed and merged. */
  function ParseDateAndTime(input: Input, options: Options, now: DateTime): (r: Combined)
    requires input.Valid() && options.Valid() && now.Valid()
    ensures input.Given? ==> r == Exact(input.moment)
    ensures r.Exact? ==> r.moment.Valid()
    ensures r.HostDependent? ==> r.date.Native? || (r.time.Some? && r.time.value.NativeTime?)
  {
    if input.Given? then Exact(input.moment)
    else
      var parts := Split(Trim(TextOf(input)), options, now);
      Merge(DateParser.ParseDate(parts.date, now).value, TimeParser.ParseTime(Text(parts.time), now))
  }

  // ---------------------------------------------------------------------
  // The merge

  /** A time in range lands on the day of the date: year, month and day
      from the date, the clock from the time. */
  lemma MergeKeepsDayTakesClock(d: DateTime, t: DateTime)
    requires d.Valid() && t.Valid()
    ensures Merge(Moment(d), Some(Moment(t))) == Exact(DateTime(d.date, t.hour, t.minute, t.second, t.millisecond))
  {
    SetHoursInRange(d, t.hour, t.minute, t.second, t.millisecond);
  }

  // ---------------------------------------------------------------------
  // The split

  /** With a space, the text before it is parsed as a date and the text
      after it as a time, even when `preferTime` is set. */
  lemma SpacedInput(raw: string, options: Options, now: DateTime)
    requires options.Valid() && now.Valid()
    requires IndexOf(Trim(raw), ' ').Some?
    ensures var s := Trim(raw);
            var i := IndexOf(s, ' ').value;
            ParseDateAndTime(Text(raw), options, now)
            == Merge(DateParser.ParseDate(Text(s[..i]), now).value, TimeParser.ParseTime(Text(s[i + 1..]), now))
  {
    var s := Trim(raw);
    var i := IndexOf(s, ' ').value;
    var parts := Split(s, options, now);
    assert parts.date.text == s[..i] && parts.time == s[i + 1..] by {
      assert s[..|parts.date.text|] == parts.date.text;
      assert s[|parts.date.text|] == ' ';
    }
  }

  /** `00:00:00` is read by the clock rule as the start of the current day. */
  lemma MidnightTextIsMidnight(now: DateTime)
    requires now.Valid()
    ensures TimeParser.ParseTime(Text(MidnightText), now) == Some(Moment(Midnight(now)))
  {
    MidnightClock();
    MidnightTextTrimmed();
    MidnightTextIsNoDigitRun();
    ZeroClockIsMidnight(MidnightText, now);
  }

  lemma MidnightClock()
    ensures TimeParser.MatchClock(MidnightText) == Some(TimeParser.ClockGroups(["00", "00", "00", ""], None))
  {
    MidnightTextPieces();
    TimeParser.ClockWithoutSuffix("00", "00", "00");
  }

  lemma MidnightTextTrimmed()
    ensures Trim(MidnightText) == MidnightText && |MidnightText| > 0 && IsDigit(MidnightText[0])
  {
    MidnightTextPieces();
    TrimUnchanged(MidnightText);
  }

  /** Text the clock pattern reads as three zero groups is midnight. */
  lemma ZeroClockIsMidnight(s: string, now: DateTime)
    requires now.Valid() && Trim(s) == s && |s| > 0 && IsDigit(s[0])
    requires TimeParser.MatchDigitRun(s).None?
    requires TimeParser.MatchClock(s) == Some(TimeParser.ClockGroups(["00", "00", "00", ""], None))
    ensures TimeParser.ParseTime(Text(s), now) == Some(Moment(Midnight(now)))
  {
    TimeParser.ClockToken(s, now);
    var token := TimeParser.ClockTokenOf(TimeParser.ClockGroups(["00", "00", "00", ""], None));
    ZeroHour();
    TimeParser.ClockMeaning(token, now);
  }

  lemma MidnightTextPieces()
    ensures MidnightText == "00" + ([':'] + ("00" + ([':'] + "00")))
    ensures MidnightText[0] == '0' && MidnightText[|MidnightText| - 1] == '0'
  {
  }

  lemma MidnightTextIsNoDigitRun()
    ensures TimeParser.MatchDigitRun(MidnightText).None?
  {
    assert MidnightText == "00" + ":00:00";
    TimeParser.DigitsThenSeparator("00", ":00:00");
  }

  lemma ZeroHour()
    ensures Heuristics.AdjustForMeridiem("00", None) == 0
  {
    assert Decimal(0) == "0" && "0" + "0" == "00";
    ParseDecimalLeadingZero("0");
  }

  /** Without a space and without `preferTime`, the whole input is a date
      and its clock is set to midnight. */
  lemma DateOnlyIsMidnight(raw: string, options: Options, now: DateTime)
    requires options.Valid() && now.Valid() && !options.preferTime
    requires IndexOf(Trim(raw), ' ').None?
    ensures var date := DateParser.ParseDate(Text(Trim(raw)), now).value;
            var r := ParseDateAndTime(Text(raw), options, now);
            && (date.Moment? ==> r == Exact(Midnight(date.moment)))
            && (date.Native? ==> r == HostDependent(date, Some(Moment(Midnight(now)))))
  {
    var date := DateParser.ParseDate(Text(Trim(raw)), now).value;
    DateOnlySplit(raw, options, now);
    MidnightTextIsMidnight(now);
    if date.Moment? {
      MergeKeepsDayTakesClock(date.moment, Midnight(now));
    }
  }

  lemma DateOnlySplit(raw: string, options: Options, now: DateTime)
    requires options.Valid() && now.Valid() && !options.preferTime
    requires IndexOf(Trim(raw), ' ').None?
    ensures ParseDateAndTime(Text(raw), options, now)
            == Merge(DateParser.ParseDate(Text(Trim(raw)), now).value, TimeParser.ParseTime(Text(MidnightText), now))
  {
    var parts := Split(Trim(raw), options, now);
    assert parts.date == Text(Trim(raw)) && parts.time == MidnightText;
  }

  /** Without a space but with `preferTime`, the whole input is a time of
      day, set on the default date when one is supplied and on the current
      day otherwise. */
  lemma PreferredTimeOnAnchor(raw: string, options: Options, now: DateTime, t: DateTime)
    requires options.Valid() && now.Valid() && options.preferTime
    requires IndexOf(Trim(raw), ' ').None?
    requires TimeParser.ParseTime(Text(Trim(raw)), now) == Some(Moment(t))
    ensures var anchor := DateParser.ParseDate(Anchor(options, now), now).value;
            var r := ParseDateAndTime(Text(raw), options, now);
            && (anchor.Moment? ==> r == Exact(DateTime(anchor.moment.date, t.hour, t.minute, t.second, t.millisecond)))
            && (anchor.Native? ==> r == HostDependent(anchor, Some(Moment(t))))
    ensures !Supplied(options.defaultDate) ==>
              ParseDateAndTime(Text(raw), options, now) == Exact(DateTime(now.date, t.hour, t.minute, t.second, t.millisecond))
  {
    var anchor := DateParser.ParseDate(Anchor(options, now), now).value;
    TrimIdempotent(raw);
    assert TimeParser.ParseTime(Text(Trim(raw)), now) == TimeParser.ParseTime(Text(raw), now);
    if anchor.Moment? {
      MergeKeepsDayTakesClock(anchor.moment, t);
    }
  }
}

=== FILE: date_and_time_examples.dfy ===
/** Inputs of the library's test-suite for `parseDateAndTime`, worked
    through the split, both parsers and the merge for any valid now. */
module DateAndTimeExamples {
  import opened Wrappers
  import opened Chars
  import opened Calendar
  import opened Values
  import opened Patterns
  import DateParser
  import TimeParser
  import TimeExamples
  import Heuristics
  import DateExamples
  import opened DateAndTime

  // ---------------------------------------------------------------------
  // `9` with `preferTime` and the default date `1988-04-26`

  /** The bare `9` is nine o'clock of the default date. The year-month-day
      rule sets year, month and day one after the other on the current
      date, so the current day of the month must exist in April 1988 and in
      the current month of 1988. */
  lemma NineOnDefaultDate(now: DateTime)
    requires now.Valid() && now.date.day <= 30 && now.date.day <= DaysInMonth(1988, now.date.month)
    ensures ParseDateAndTime(Text("9"), Options(true, Some(Text("1988-04-26"))), now)
            == Exact(DateTime(Date(1988, 4, 26), 9, 0, 0, 0))
  {
    var options := Options(true, Some(Text("1988-04-26")));
    NineIsNineOClock(now);
    DefaultDateParsed(now);
    DefaultDateIsAnchor(now);
    NineHasNoSpace();
    PreferredTimeOnAnchor("9", options, now, DateTime(now.date, 9, 0, 0, 0));
  }

  lemma DefaultDateIsAnchor(now: DateTime)
    requires now.Valid()
    ensures Anchor(Options(true, Some(Text("1988-04-26"))), now) == Text("1988-04-26")
  {
    assert |"1988-04-26"| > 0;
  }

  lemma NineHasNoSpace()
    ensures IndexOf(Trim("9"), ' ').None?
  {
    TrimUnchanged("9");
    assert "9"[0] != ' ';
  }

  /** `9` is a digit run of one digit above the business-hour band. */
  lemma NineIsNineOClock(now: DateTime)
    requires now.Valid()
    ensures Trim("9") == "9"
    ensures TimeParser.ParseTime(Text("9"), now) == Some(Moment(DateTime(now.date, 9, 0, 0, 0)))
  {
    NineText();
    TimeParser.MatchDigitRunOf("9", "", "");
    TimeParser.DigitRunToken("9", now);
    TimeParser.DigitRunMeaning("9", None, now);
  }

  lemma NineText()
    ensures Trim("9") == "9" && "9" + "" + "" == "9"
    ensures TimeParser.SplitRun("9") == ("9", 0) && Heuristics.AdjustForMeridiem("9", None) == 9
  {
    TrimUnchanged("9");
    assert Decimal(9) == "9";
  }

  /** `1988-04-26` is the start of 26 April 1988. */
  lemma DefaultDateParsed(now: DateTime)
    requires now.Valid() && now.date.day <= 30 && now.date.day <= DaysInMonth(1988, now.date.month)
    ensures DateParser.ParseDate(Text("1988-04-26"), now) == Some(Moment(DateTime(Date(1988, 4, 26), 0, 0, 0, 0)))
  {
    DefaultDateText();
    DefaultDateNumbers();
    DateParser.YearMonthDayForm("1988-04-26", "1988", '-', "04", '-', "26", now);
  }

  lemma DefaultDateText()
    ensures "1988-04-26" == "1988" + ['-'] + "04" + ['-'] + "26"
    ensures Trim("1988-04-26") == "1988-04-26"
  {
    TrimUnchanged("1988-04-26");
  }

  lemma DefaultDateNumbers()
    ensures ParseDecimal("1988") == 1988 && ParseDecimal("04") == 4 && ParseDecimal("26") == 26
    ensures DaysInMonth(1988, 4) == 30
  {
    assert Decimal(1988) == "1988" && Decimal(26) == "26" && Decimal(4) == "4";
    assert "0" + "4" == "04";
    ParseDecimalLeadingZero("4");
  }

  /** On the 31st of a month the same input is nine o'clock of 26 May 1988:
      the year-month-day rule keeps day 31 while it sets April, which rolls
      over to 1 May before the day is set. */
  lemma NineOnDefaultDateOnThe31st(now: DateTime)
    requires now.Valid() && now.date.day == 31
    ensures ParseDateAndTime(Text("9"), Options(true, Some(Text("1988-04-26"))), now)
            == Exact(DateTime(Date(1988, 5, 26), 9, 0, 0, 0))
  {
    var options := Options(true, Some(Text("1988-04-26")));
    NineIsNineOClock(now);
    DefaultDateParsedOnThe31st(now);
    DefaultDateIsAnchor(now);
    NineHasNoSpace();
    PreferredTimeOnAnchor("9", options, now, DateTime(now.date, 9, 0, 0, 0));
  }

  /** `1988-04-26` on the 31st of a month is the start of 26 May 1988. */
  lemma DefaultDateParsedOnThe31st(now: DateTime)
    requires now.Valid() && now.date.day == 31
    ensures DateParser.ParseDate(Text("1988-04-26"), now) == Some(Moment(DateTime(Date(1988, 5, 26), 0, 0, 0, 0)))
  {
    DefaultDateText();
    DefaultDateNumbers();
    DateParser.YearMonthDayToken("1988-04-26", "1988", '-', "04", '-', "26", now);
    DateParser.YearMonthDayHandler(1988, 4, 26, now);
    DateExamples.AprilDayFromThe31st(now, 1988, 26);
  }

  // ---------------------------------------------------------------------
  // `1/1/2020 08:22:34.028 CST`

  /** The text before the space is 1 January 2020, the text after it the
      clock 08:22:34.028; the merge puts that clock on that day. */
  lemma DateThenClock(now: DateTime)
    requires now.Valid() && now.date.day <= DaysInMonth(2020, now.date.month)
    ensures ParseDateAndTime(Text("1/1/2020 08:22:34.028 CST"), NoOptions, now)
            == Exact(DateTime(Date(2020, 1, 1), 8, 22, 34, 28))
  {
    var raw := "1/1/2020 08:22:34.028 CST";
    DateThenClockText();
    SplitAtSpace("1/1/2020", "08:22:34.028 CST");
    NewYearParsed(now);
    ClockParsed(now);
    SpacedInput(raw, NoOptions, now);
    MergeKeepsDayTakesClock(DateTime(Date(2020, 1, 1), 0, 0, 0, 0), DateTime(now.date, 8, 22, 34, 28));
  }

  lemma DateThenClockText()
    ensures "1/1/2020 08:22:34.028 CST" == "1/1/2020" + " " + "08:22:34.028 CST"
    ensures Trim("1/1/2020 08:22:34.028 CST") == "1/1/2020 08:22:34.028 CST"
    ensures forall j | 0 <= j < |"1/1/2020"| :: "1/1/2020"[j] != ' '
  {
    DateThenClockTrimmed();
    NewYearHasNoSpace();
  }

  lemma DateThenClockTrimmed()
    ensures Trim("1/1/2020 08:22:34.028 CST") == "1/1/2020 08:22:34.028 CST"
  {
    var s := "1/1/2020 08:22:34.028 CST";
    assert s[0] == '1' && s[|s| - 1] == 'T';
    TrimUnchanged(s);
  }

  lemma NewYearHasNoSpace()
    ensures forall j | 0 <= j < |"1/1/2020"| :: "1/1/2020"[j] != ' '
  {
    var s := "1/1/2020";
    forall j | 0 <= j < |s| ensures s[j] != ' ' {
      assert s[j] in "1/20";
    }
  }

  /** Text without a space, a space and more text: the first space is the
      one in between. */
  lemma SplitAtSpace(a: string, b: string)
    requires forall j | 0 <= j < |a| :: a[j] != ' '
    ensures IndexOf(a + " " + b, ' ') == Some(|a|)
    ensures (a + " " + b)[..|a|] == a && (a + " " + b)[|a| + 1..] == b
  {
    var s := a + " " + b;
    assert s[|a|] == ' ';
    assert forall j | 0 <= j < |a| :: s[j] == a[j];
  }

  /** `1/1/2020` is the start of 1 January 2020. */
  lemma NewYearParsed(now: DateTime)
    requires now.Valid() && now.date.day <= DaysInMonth(2020, now.date.month)
    ensures DateParser.ParseDate(Text("1/1/2020"), now) == Some(Moment(DateTime(Date(2020, 1, 1), 0, 0, 0, 0)))
  {
    NewYearText();
    DateParser.TokenYearMeaning("2020", now);
    DateParser.MonthDayYearForm("1/1/2020", "1", '/', "1", '/', "2020", now);
  }

  lemma NewYearText()
    ensures "1/1/2020" == "1" + ['/'] + "1" + ['/'] + "2020"
    ensures Trim("1/1/2020") == "1/1/2020"
    ensures ParseDecimal("2020") == 2020 && ParseDecimal("1") == 1
  {
    TrimUnchanged("1/1/2020");
    assert Decimal(2020) == "2020" && Decimal(1) == "1";
  }

  /** `08:22:34.028 CST` is 08:22:34.028 of the current day. */
  lemma ClockParsed(now: DateTime)
    requires now.Valid()
    ensures TimeParser.ParseTime(Text("08:22:34.028 CST"), now) == Some(Moment(DateTime(now.date, 8, 22, 34, 28)))
  {
    ClockText();
    TimeExamples.MillisecondClockScanned();
    TimeParser.DigitsThenSeparator("08", ":22:34.028 CST");
    ClockTokenRead();
    TimeParser.ClockToken("08:22:34.028 CST", now);
    TimeExamples.MillisecondClockMeaning(now);
  }

  lemma ClockText()
    ensures "08:22:34.028 CST" == "08" + ":22:34.028 CST"
    ensures Trim("08:22:34.028 CST") == "08:22:34.028 CST"
  {
    TrimUnchanged("08:22:34.028 CST");
  }

  lemma ClockTokenRead()
    ensures TimeParser.ClockTokenOf(TimeParser.ClockGroups(["08", "22", "34", "028"], None))
            == TimeParser.Clock("08", Some(22), Some(34), Some(28), None)
  {
    assert Decimal(22) == "22" && Decimal(34) == "34" && Decimal(28) == "28";
    assert "0" + "28" == "028";
    ParseDecimalLeadingZero("28");
  }

  // ---------------------------------------------------------------------
  // `1/1/2020 12:42:49 PM`

  /** The clock `12:42:49 PM` rolls over to 00:42:49 of the next day, and
      the merge copies only that clock: the day of the date part stays, so
      the result is 00:42:49 on 1 January 2020. */
  lemma NoonOnNewYear(now: DateTime)
    requires now.Valid() && now.date.day <= DaysInMonth(2020, now.date.month)
    ensures ParseDateAndTime(Text("1/1/2020 12:42:49 PM"), NoOptions, now)
            == Exact(DateTime(Date(2020, 1, 1), 0, 42, 49, 0))
  {
    var raw := "1/1/2020 12:42:49 PM";
    NoonOnNewYearText();
    NewYearHasNoSpace();
    SplitAtSpace("1/1/2020", "12:42:49 PM");
    NewYearParsed(now);
    NoonParsed(now);
    SpacedInput(raw, NoOptions, now);
    MergeKeepsDayTakesClock(DateTime(Date(2020, 1, 1), 0, 0, 0, 0), DateTime(AddDays(now.date, 1), 0, 42, 49, 0));
  }

  lemma NoonOnNewYearText()
    ensures "1/1/2020 12:42:49 PM" == "1/1/2020" + " " + "12:42:49 PM"
    ensures Trim("1/1/2020 12:42:49 PM") == "1/1/2020 12:42:49 PM"
  {
    var s := "1/1/2020 12:42:49 PM";
    assert s[0] == '1' && s[|s| - 1] == 'M';
    TrimUnchanged(s);
    assert |s| == 20 && forall j | 0 <= j < 20 :: s[j] == ("1/1/2020" + " " + "12:42:49 PM")[j];
  }

  /** `12:42:49 PM` is 00:42:49 of the next day. */
  lemma NoonParsed(now: DateTime)
    requires now.Valid()
    ensures TimeParser.ParseTime(Text("12:42:49 PM"), now) == Some(Moment(DateTime(AddDays(now.date, 1), 0, 42, 49, 0)))
  {
    NoonText();
    TimeExamples.NoonClockScanned();
    TimeExamples.NoonIsNoDigitRun();
    NoonTokenRead();
    TimeParser.ClockToken("12:42:49 PM", now);
    TimeExamples.NoonClockRollsOver(now);
  }

  lemma NoonText()
    ensures Trim("12:42:49 PM") == "12:42:49 PM" && IsDigit("12:42:49 PM"[0])
  {
    TrimUnchanged("12:42:49 PM");
  }

  lemma NoonTokenRead()
    ensures TimeParser.ClockTokenOf(TimeParser.ClockGroups(["12", "42", "49", ""], Some("PM")))
            == TimeParser.Clock("12", Some(42), Some(49), None, Some("PM"))
  {
    assert Decimal(42) == "42" && Decimal(49) == "49";
  }
}

=== FILE: date_examples.dfy ===
/** Inputs of the library's test-suite for `parseDate`, worked through the
    recognisers and the handlers for every current date under which the
    handlers' setters do not roll over, and the rollover they perform on the
    31st of a month. */
module DateExamples {
  import opened Wrappers
  import opened Chars
  import opened Calendar
  import opened Values
  import opened Patterns
  import opened DateParser

  function Day(year: int, month: int, day: int): DateTime {
    DateTime(Date(year, month, day), 0, 0, 0, 0)
  }

  /** `88` is read as 1988 while the current year's last two digits stay
      below 78, so that 88 lies more than ten above them. */
  lemma LateTwoDigitYear(now: DateTime)
    requires now.Valid() && 1000 <= now.date.year <= 9999 && now.date.year % 100 < 78
    ensures TokenYear(Some("88"), now) == Some(1988)
  {
    assert Decimal(88) == "88";
    TokenYearMeaning("88", now);
  }

  /** `18` is read as 2018 once the current year's last two digits reach 8. */
  lemma EarlyTwoDigitYear(now: DateTime)
    requires now.Valid() && 1000 <= now.date.year <= 9999 && now.date.year % 100 >= 8
    ensures TokenYear(Some("18"), now) == Some(2018)
  {
    assert Decimal(18) == "18";
    TokenYearMeaning("18", now);
  }

  /** `4/26/88` is 26 April 1988. `setFullYear` and `setMonth` keep today's
      day of the month, so it must exist in today's month of 1988 and in
      April. */
  lemma MonthDayLateYear(now: DateTime)
    requires now.Valid() && 1000 <= now.date.year <= 9999 && now.date.year % 100 < 78
    requires now.date.day <= 30 && now.date.day <= DaysInMonth(1988, now.date.month)
    ensures ParseDate(Text("4/26/88"), now) == Some(Moment(Day(1988, 4, 26)))
  {
    LateYearText();
    LateTwoDigitYear(now);
    MonthDayYearForm("4/26/88", "4", '/', "26", '/', "88", now);
  }

  lemma LateYearText()
    ensures "4/26/88" == "4" + ['/'] + "26" + ['/'] + "88"
    ensures Trim("4/26/88") == "4/26/88" && Optional("88") == Some("88")
    ensures ParseDecimal("4") == 4 && ParseDecimal("26") == 26
  {
    TrimUnchanged("4/26/88");
    AprilNumbers();
  }

  lemma AprilNumbers()
    ensures ParseDecimal("4") == 4 && ParseDecimal("26") == 26
  {
    assert Decimal(4) == "4" && Decimal(26) == "26";
  }

  /** `5-3-18` is 3 May 2018; May has every day of the month, so only the
      year change must not roll over. */
  lemma MonthDayEarlyYear(now: DateTime)
    requires now.Valid() && 1000 <= now.date.year <= 9999 && now.date.year % 100 >= 8
    requires now.date.day <= DaysInMonth(2018, now.date.month)
    ensures ParseDate(Text("5-3-18"), now) == Some(Moment(Day(2018, 5, 3)))
  {
    EarlyYearText();
    EarlyTwoDigitYear(now);
    MonthDayYearForm("5-3-18", "5", '-', "3", '-', "18", now);
  }

  /** On the 31st of a month `4/26/88` is 26 May 1988: April has no day
      31, so `setMonth(3)` rolls over to 1 May before `setDate(26)`. */
  lemma MonthDayLateYearOnThe31st(now: DateTime)
    requires now.Valid() && 1000 <= now.date.year <= 9999 && now.date.year % 100 < 78
    requires now.date.day == 31
    ensures ParseDate(Text("4/26/88"), now) == Some(Moment(Day(1988, 5, 26)))
  {
    LateYearText();
    LateTwoDigitYear(now);
    MonthDayYearToken("4/26/88", "4", '/', "26", '/', "88", now);
    MonthDayYearHandler(4, 26, Some("88"), now);
    YearBaseSetsTokenYear(Some("88"), now);
    AprilDayFromThe31st(now, 1988, 26);
  }

  /** Setting year, April and a day in turn on the 31st of a month lands on
      that day of May: the 31st exists in every month of every year that
      has it, but not in April. */
  lemma AprilDayFromThe31st(now: DateTime, year: int, day: int)
    requires now.Valid() && now.date.day == 31 && 1 <= day <= 31
    ensures StartOfMonthDay(SetFullYear(now, year), 3, day) == Day(year, 5, day)
  {
    var base := SetFullYear(now, year);
    assert now.date.month != 2;
    assert DaysInMonth(year, now.date.month) == 31;
    assert base.date == now.date.(year := year);
    SetMonthRollsOver(base, 4);
    var r := StartOfMonthDay(base, 3, day);
    DayNumberInjective(r.date, Date(year, 5, day));
  }

  lemma EarlyYearText()
    ensures "5-3-18" == "5" + ['-'] + "3" + ['-'] + "18"
    ensures Trim("5-3-18") == "5-3-18" && Optional("18") == Some("18")
    ensures ParseDecimal("5") == 5 && ParseDecimal("3") == 3
  {
    TrimUnchanged("5-3-18");
    assert Decimal(5) == "5" && Decimal(3) == "3";
  }

  /** On the 31st of a month `4/26` is 26 May: `setMonth(3)` keeps day 31,
      which April does not have, so the month rolls over to May first. */
  lemma AprilRollsOverToMay(now: DateTime)
    requires now.Valid() && now.date.day == 31
    ensures ParseDate(Text("4/26"), now) == Some(Moment(Day(now.date.year, 5, 26)))
  {
    AprilText();
    MonthDayToken("4/26", "4", '/', "26", now);
    AprilHandlerOnThe31st(now);
  }

  lemma AprilHandlerOnThe31st(now: DateTime)
    requires now.Valid() && now.date.day == 31
    ensures Interpret(MonthDay(4, Some(26)), now) == Moment(Day(now.date.year, 5, 26))
  {
    MonthDayRollsOver(4, Some(26), now);
    MonthDayMeaning(4, Some(26), now);
    var r := Interpret(MonthDay(4, Some(26)), now).moment;
    DayNumberInjective(r.date, Date(now.date.year, 5, 26));
  }

  lemma AprilText()
    ensures "4/26" == "4" + ['/'] + "26" && Trim("4/26") == "4/26"
    ensures ParseDecimal("4") == 4 && ParseDecimal("26") == 26
  {
    TrimUnchanged("4/26");
    AprilNumbers();
  }

  /** On a day February does not have, `2/` is 1 March. */
  lemma FebruaryRollsOverToMarch(now: DateTime)
    requires now.Valid() && now.date.day > DaysInMonth(now.date.year, 2)
    ensures ParseDate(Text("2/"), now) == Some(Moment(Day(now.date.year, 3, 1)))
  {
    FebruaryText();
    MonthDayToken("2/", "2", '/', "", now);
    FebruaryHandlerLateInMonth(now);
  }

  lemma FebruaryHandlerLateInMonth(now: DateTime)
    requires now.Valid() && now.date.day > DaysInMonth(now.date.year, 2)
    ensures Interpret(MonthDay(2, None), now) == Moment(Day(now.date.year, 3, 1))
  {
    MonthDayRollsOver(2, None, now);
    MonthDayMeaning(2, None, now);
    var r := Interpret(MonthDay(2, None), now).moment;
    DayNumberInjective(r.date, Date(now.date.year, 3, 1));
  }

  lemma FebruaryText()
    ensures "2/" == "2" + ['/'] + "" && Trim("2/") == "2/"
    ensures ParseDecimal("2") == 2
  {
    TrimUnchanged("2/");
    assert Decimal(2) == "2";
  }
}

=== FILE: date_parser.dfy ===
/** `parseDate`: a fixed, ordered table of twelve rules over the trimmed
    input. The first rule whose pattern accepts decides the result; the last
    rule accepts every string and hands it to the host's own date parsing. */
module DateParser {
  import opened Wrappers
  import opened Chars
  import opened Calendar
  import opened RuleTable
  import opened Patterns
  import opened Heuristics
  import opened Values

  /** The rules of the table, one per regular expression of index.js. */
  datatype DateRule =
    | CurrentRule        // /^c$/i
    | TomorrowRule       // /^t$/i
    | YesterdayRule      // /^y$/i
    | FirstDayRule       // /^f$/i
    | LastDayRule        // /^l$/i
    | DaysAheadRule      // /^\+(\d+)/
    | DaysBackRule       // /^-(\d+)/
    | DayOfMonthRule     // /^(\d{1,2})$/
    | MonthDayRule       // /^(\d{1,2})[sep](\d{1,2})?$/
    | MonthDayYearRule   // /^(\d{1,2})[sep](\d{1,2})[sep](\d{2,4})?$/
    | YearMonthDayRule   // /^(\d{4})[sep](\d{1,2})[sep](\d{1,2})$/
    | NativeRule         // /.*/

  const DateRules: seq<DateRule> := [
    CurrentRule, TomorrowRule, YesterdayRule, FirstDayRule, LastDayRule,
    DaysAheadRule, DaysBackRule, DayOfMonthRule, MonthDayRule,
    MonthDayYearRule, YearMonthDayRule, NativeRule
  ]

  /** What a rule hands its handler: the groups its pattern captured, with
      `parseInt` already applied to the groups the handler only ever reads
      as numbers. The year of `MM/DD/YY` stays text, since its length
      decides how it is read. */
  datatype DateToken =
    | Current | Tomorrow | Yesterday | FirstDay | LastDay
    | DaysAhead(count: nat)
    | DaysBack(count: nat)
    | DayOfMonth(day: nat)
    | MonthDay(month: nat, optDay: Option<nat>)
    | MonthDayYear(month: nat, day: nat, optYear: Option<string>)
    | YearMonthDay(year: nat, month: nat, day: nat)
    | NativeText(text: string)
  {
    /** The shape the pattern guarantees of the year group. */
    predicate WellFormed() {
      MonthDayYear? && optYear.Some? ==> IsDigits(optYear.value) && 2 <= |optYear.value| <= 4
    }
  }

  /** `(\d{lo,hi})[sep]` at the start of `s`: the digit group and what
      follows the separator. The separators are not digits, so the group is
      the whole leading digit run. */
  function DatePiece(s: string, lo: nat, hi: nat): (r: Option<(string, string)>)
    ensures r.Some? ==> var (digits, rest) := r.value;
              && IsDigits(digits) && lo <= |digits| <= hi && |digits| < |s|
              && IsDateSeparator(s[|digits|]) && s == digits + [s[|digits|]] + rest
  {
    var k := DigitPrefixLength(s);
    if lo <= k <= hi && k < |s| && IsDateSeparator(s[k]) then
      assert s == s[..k] + [s[k]] + s[k + 1..];
      Some((s[..k], s[k + 1..]))
    else None
  }

  /** Every digit group of the right width followed by a separator is
      accepted, with its own pieces. */
  lemma DatePieceOf(digits: string, c: char, rest: string, lo: nat, hi: nat)
    requires IsDigits(digits) && lo <= |digits| <= hi && IsDateSeparator(c)
    ensures DatePiece(digits + [c] + rest, lo, hi) == Some((digits, rest))
  {
    var s := digits + [c] + rest;
    assert s == digits + ([c] + rest);
    DigitPrefixOfJoin(digits, [c] + rest);
    assert s[..|digits|] == digits && s[|digits|] == c && s[|digits| + 1..] == rest;
  }

  /** `/^(\d{1,2})[sep](\d{1,2})?$/`: the month digits and the (possibly
      empty) day digits around the separator. */
  function MatchMonthDay(s: string): (r: Option<(string, string)>)
    ensures r.Some? ==> var (m, d) := r.value;
              && IsDigits(m) && 1 <= |m| <= 2 && IsDigits(d) && |d| <= 2
              && |m| < |s| && IsDateSeparator(s[|m|]) && s == m + [s[|m|]] + d
  {
    match DatePiece(s, 1, 2)
    case Some((m, d)) => if IsDigits(d) && |d| <= 2 then Some((m, d)) else None
    case None => None
  }

  /** Every string of the month-day shape is accepted, with its own pieces. */
  lemma MatchMonthDayOf(m: string, c: char, d: string)
    requires IsDigits(m) && 1 <= |m| <= 2 && IsDateSeparator(c) && IsDigits(d) && |d| <= 2
    ensures MatchMonthDay(m + [c] + d) == Some((m, d))
  {
    DatePieceOf(m, c, d, 1, 2);
  }

  /** `/^(\d{1,2})[sep](\d{1,2})[sep](\d{2,4})?$/`: month, day and the
      (possibly empty) year digits. */
  function MatchMonthDayYear(s: string): (r: Option<(string, string, string)>)
    ensures r.Some? ==> var (m, d, y) := r.value;
              && IsDigits(m) && 1 <= |m| <= 2 && IsDigits(d) && 1 <= |d| <= 2
              && IsDigits(y) && (|y| == 0 || 2 <= |y| <= 4)
              && |m| + |d| + 1 < |s|
              && IsDateSeparator(s[|m|]) && IsDateSeparator(s[|m| + 1 + |d|])
              && s == m + [s[|m|]] + d + [s[|m| + 1 + |d|]] + y
  {
    match DatePiece(s, 1, 2)
    case None => None
    case Some((m, rest)) =>
      match DatePiece(rest, 1, 2)
      case None => None
      case Some((d, y)) =>
        if IsDigits(y) && (|y| == 0 || 2 <= |y| <= 4) then
          assert s == m + [s[|m|]] + (d + [rest[|d|]] + y);
          Some((m, d, y))
        else None
  }

  /** Every string of the month-day-year shape is accepted, with its own
      pieces. */
  lemma MatchMonthDayYearOf(m: string, c1: char, d: string, c2: char, y: string)
    requires IsDigits(m) && 1 <= |m| <= 2 && IsDateSeparator(c1)
    requires IsDigits(d) && 1 <= |d| <= 2 && IsDateSeparator(c2)
    requires IsDigits(y) && (|y| == 0 || 2 <= |y| <= 4)
    ensures MatchMonthDayYear(m + [c1] + d + [c2] + y) == Some((m, d, y))
  {
    var tail := d + [c2] + y;
    assert m + [c1] + d + [c2] + y == m + [c1] + tail;
    DatePieceOf(m, c1, tail, 1, 2);
    DatePieceOf(d, c2, y, 1, 2);
  }

  /** `/^(\d{4})[sep](\d{1,2})[sep](\d{1,2})$/`: year, month and day digits. */
  function MatchYearMonthDay(s: string): (r: Option<(string, string, string)>)
    ensures r.Some? ==> var (y, m, d) := r.value;
              && IsDigits(y) && |y| == 4 && IsDigits(m) && 1 <= |m| <= 2
              && IsDigits(d) && 1 <= |d| <= 2
              && 5 + |m| < |s| && IsDateSeparator(s[4]) && IsDateSeparator(s[5 + |m|])
              && s == y + [s[4]] + m + [s[5 + |m|]] + d
  {
    match DatePiece(s, 4, 4)
    case None => None
    case Some((y, rest)) =>
      match DatePiece(rest, 1, 2)
      case None => None
      case Some((m, d)) =>
        if IsDigits(d) && 1 <= |d| <= 2 then
          assert s == y + [s[4]] + (m + [rest[|m|]] + d);
          Some((y, m, d))
        else None
  }

  /** Every string of the year-month-day shape is accepted, with its own
      pieces. */
  lemma MatchYearMonthDayOf(y: string, c1: char, m: string, c2: char, d: string)
    requires IsDigits(y) && |y| == 4 && IsDateSeparator(c1)
    requires IsDigits(m) && 1 <= |m| <= 2 && IsDateSeparator(c2)
    requires IsDigits(d) && 1 <= |d| <= 2
    ensures MatchYearMonthDay(y + [c1] + m + [c2] + d) == Some((y, m, d))
  {
    var tail := m + [c2] + d;
    assert y + [c1] + m + [c2] + d == y + [c1] + tail;
    DatePieceOf(y, c1, tail, 4, 4);
    DatePieceOf(m, c2, d, 1, 2);
  }

  /** The recogniser of each rule: the token its pattern captures from the
      trimmed input, or None when the pattern does not match. What each
      pattern accepts is stated by the `Match…`/`Match…Of` pairs and by the
      `…Recognised` lemmas below. */
  function Recognise(rule: DateRule, s: string): (r: Option<DateToken>)
    ensures r.Some? ==> r.value.WellFormed()
    ensures rule == NativeRule ==> r == Some(NativeText(s))
    ensures r.Some? && r.value.NativeText? ==> rule == NativeRule
  {
    match rule
    case CurrentRule => if IsLetter(s, 'c', 'C') then Some(Current) else None
    case TomorrowRule => if IsLetter(s, 't', 'T') then Some(Tomorrow) else None
    case YesterdayRule => if IsLetter(s, 'y', 'Y') then Some(Yesterday) else None
    case FirstDayRule => if IsLetter(s, 'f', 'F') then Some(FirstDay) else None
    case LastDayRule => if IsLetter(s, 'l', 'L') then Some(LastDay) else None
    case DaysAheadRule =>
      (match SignedCount(s, '+') case Some(n) => Some(DaysAhead(ParseDecimal(n))) case None => None)
    case DaysBackRule =>
      (match SignedCount(s, '-') case Some(n) => Some(DaysBack(ParseDecimal(n))) case None => None)
    case DayOfMonthRule =>
      if 1 <= |s| <= 2 && IsDigits(s) then Some(DayOfMonth(ParseDecimal(s))) else None
    case MonthDayRule =>
      (match MatchMonthDay(s)
       case Some((m, d)) => Some(MonthDay(ParseDecimal(m), if |d| == 0 then None else Some(ParseDecimal(d))))
       case None => None)
    case MonthDayYearRule =>
      (match MatchMonthDayYear(s)
       case Some((m, d, y)) => Some(MonthDayYear(ParseDecimal(m), ParseDecimal(d), Optional(y)))
       case None => None)
    case YearMonthDayRule =>
      (match MatchYearMonthDay(s)
       case Some((y, m, d)) => Some(YearMonthDay(ParseDecimal(y), ParseDecimal(m), ParseDecimal(d)))
       case None => None)
    case NativeRule => Some(NativeText(s))
  }

  /** The recogniser of the table applied to one trimmed input. */
  function RecogniserFor(s: string): DateRule -> Option<DateToken> {
    rule => Recognise(rule, s)
  }

  /** `new Date(year, monthIndex, day)` reads years 0 to 99 as 1900 to 1999. */
  function ConstructorYear(year: int): int {
    if 0 <= year <= 99 then 1900 + year else year
  }

  /** `new Date(now.getFullYear(), now.getMonth() + 1, 0).getDate()`: day 0
      of the next month is the last day of this one. */
  function LastDayOfMonth(now: DateTime): (d: int)
    requires now.Valid()
    ensures d == DaysInMonth(ConstructorYear(now.date.year), now.date.month)
    ensures 1 <= d <= DaysInMonth(now.date.year, now.date.month)
    ensures !(now.date.year == 0 && now.date.month == 2) ==> d == DaysInMonth(now.date.year, now.date.month)
  {
    DayZeroIsLastDay(ConstructorYear(now.date.year), now.date.month);
    ConstructorYearLeap(now.date.year);
    MakeDay(ConstructorYear(now.date.year), now.date.month, 0).day
  }

  /** Day 0 of the month after (`year`, `month`) is the last day of `month`. */
  lemma DayZeroIsLastDay(year: int, month: int)
    requires 1 <= month <= 12
    ensures MakeDay(year, month, 0) == Date(year, month, DaysInMonth(year, month))
  {
    assert month < 12 ==> month / 12 == 0 && month % 12 == month;
    assert month == 12 ==> month / 12 == 1 && month % 12 == 0;
    MonthStep(year, month);
    DayNumberInjective(MakeDay(year, month, 0), Date(year, month, DaysInMonth(year, month)));
  }

  /** The constructor's reading of years 0 to 99 keeps the leap years,
      except for year 0, which is leap while 1900 is not. */
  lemma ConstructorYearLeap(year: int)
    ensures year != 0 ==> IsLeapYear(ConstructorYear(year)) == IsLeapYear(year)
  {
    if 1 <= year <= 99 {
      assert (1900 + year) % 4 == year % 4;
      assert (1900 + year) % 100 == year % 100 == year;
    }
  }

  /** The year a `MM/DD/YY` token sets: two digits go through the sliding
      window, three or four are used as written, none keeps the current
      year. */
  function TokenYear(year: Option<string>, now: DateTime): (r: Option<int>)
    requires year.Some? ==> IsDigits(year.value) && 2 <= |year.value| <= 4
    ensures r.Some? <==> year.Some?
    ensures year.Some? && |year.value| > 2 ==> r == Some(ParseDecimal(year.value))
  {
    match year
    case None => None
    case Some(y) =>
      if |y| == 2 then Some(ParseDecimal(CalculateFullYear(y, now.date.year)))
      else Some(ParseDecimal(y))
  }

  /** `setDate(day)` followed by `setHours(0, 0, 0, 0)`: the start of day
      `day` of now's month, counted on from its first (so 0 is the last day
      of the month before and 32 lies in the month after). */
  function StartOfDay(now: DateTime, day: int): (r: DateTime)
    requires now.Valid()
    ensures r.Valid() && r.hour == 0 && r.minute == 0 && r.second == 0 && r.millisecond == 0
    ensures DayNumber(r.date) == FirstOfMonth(now.date.year, now.date.month) + day - 1
    ensures DayNumber(r.date) == DayNumber(now.date) + (day - now.date.day)
    ensures 1 <= day <= DaysInMonth(now.date.year, now.date.month) ==> r.date == now.date.(day := day)
  {
    Midnight(SetDate(now, day))
  }

  /** `setMonth(monthIndex)`, then `setDate(day)`, then `setHours(0, 0, 0, 0)`.
      The day of `base` is kept by `setMonth`, so it may roll the month
      over before `setDate` picks the day. */
  function StartOfMonthDay(base: DateTime, monthIndex: int, day: int): (r: DateTime)
    requires base.Valid()
    ensures r.Valid() && r.hour == 0 && r.minute == 0 && r.second == 0 && r.millisecond == 0
    ensures var m := SetMonth(base, monthIndex).date;
            DayNumber(r.date) == FirstOfMonth(m.year, m.month) + day - 1
    ensures && 0 <= monthIndex < 12
            && base.date.day <= DaysInMonth(base.date.year, monthIndex + 1)
            && 1 <= day <= DaysInMonth(base.date.year, monthIndex + 1)
            ==> r.date == Date(base.date.year, monthIndex + 1, day)
  {
    StartOfDay(SetMonth(base, monthIndex), day)
  }

  /** The moment a `MM/DD/YY` token starts from: now, moved to the token's
      year when it has one. */
  function YearBase(year: Option<string>, now: DateTime): (r: DateTime)
    requires year.Some? ==> IsDigits(year.value) && 2 <= |year.value| <= 4
    requires now.Valid()
    ensures r.Valid()
    ensures year.None? ==> r == now
    ensures year.Some? ==> r == SetFullYear(now, TokenYear(year, now).value)
  {
    match TokenYear(year, now)
    case None => now
    case Some(y) => SetFullYear(now, y)
  }

  /** The handler of each rule, applied to the captured token and to now. */
  function Interpret(token: DateToken, now: DateTime): (r: Outcome)
    requires token.WellFormed() && now.Valid()
    ensures r.Moment? ==> r.moment.Valid()
    ensures r.Native? <==> token.NativeText?
    ensures !r.NativeTime?
  {
    match token
    case Current => Moment(now)
    case Tomorrow => Moment(StartOfDay(now, now.date.day + 1))
    case Yesterday => Moment(StartOfDay(now, now.date.day - 1))
    case FirstDay => Moment(StartOfDay(now, 1))
    case LastDay => Moment(StartOfDay(now, LastDayOfMonth(now)))
    case DaysAhead(n) => Moment(StartOfDay(now, now.date.day + n))
    case DaysBack(n) => Moment(StartOfDay(now, now.date.day - n))
    case DayOfMonth(d) => Moment(StartOfDay(now, d))
    case MonthDay(m, d) => Moment(StartOfMonthDay(now, m - 1, d.GetOr(1)))
    case MonthDayYear(m, d, y) => Moment(StartOfMonthDay(YearBase(y, now), m - 1, d))
    case YearMonthDay(y, m, d) => Moment(StartOfMonthDay(SetFullYear(now, y), m - 1, d))
    case NativeText(text) => Native(text)
  }

  /** `parseDate(input)`: a valid `Date` passes through; anything else is
      turned into a string, trimmed and handed to the first rule of the
      table that accepts it. The last rule accepts everything, so the search
      always succeeds. Which rule decides is stated by
      FirstAcceptingRuleDecides and NativeExactlyWhenNoPatternAccepts. */
  function ParseDate(input: Input, now: DateTime): (r: Option<Outcome>)
    requires now.Valid() && input.Valid()
    ensures r.Some? && !r.value.NativeTime?
    ensures input.Given? ==> r == Some(Moment(input.moment))
    ensures r.value.Moment? ==> r.value.moment.Valid()
  {
    if input.Given? then Some(Moment(input.moment))
    else
      var s := Trim(TextOf(input));
      assert RecogniserFor(s)(DateRules[11]).Some?;
      match FirstMatch(DateRules, RecogniserFor(s))
      case None => None
      case Some((_, token)) => Some(Interpret(token, now))
  }

  // ---------------------------------------------------------------------
  // Rule order

  /** The first rule of the table that accepts the trimmed input decides
      the result, whatever later rules would have made of it. */
  lemma FirstAcceptingRuleDecides(raw: string, now: DateTime, i: nat, token: DateToken)
    requires now.Valid()
    requires i < |DateRules| && Recognise(DateRules[i], Trim(raw)) == Some(token)
    requires forall j | 0 <= j < i :: Recognise(DateRules[j], Trim(raw)).None?
    ensures ParseDate(Text(raw), now) == Some(Interpret(token, now))
  {
    var s := Trim(raw);
    FirstMatchAt(DateRules, RecogniserFor(s), i);
  }

  /** The host's parsing is reached exactly when none of the eleven patterns
      before the catch-all accepts, and it receives the trimmed text. */
  lemma NativeExactlyWhenNoPatternAccepts(raw: string, now: DateTime)
    requires now.Valid()
    ensures ParseDate(Text(raw), now).value.Native?
            <==> forall j | 0 <= j < 11 :: Recognise(DateRules[j], Trim(raw)).None?
    ensures ParseDate(Text(raw), now).value.Native? ==> ParseDate(Text(raw), now).value == Native(Trim(raw))
  {
    var s := Trim(raw);
    if forall j | 0 <= j < 11 :: Recognise(DateRules[j], s).None? {
      NativeToken(raw, now);
    } else {
      var j :| 0 <= j < 11 && Recognise(DateRules[j], s).Some?;
      PatternBeatsHost(raw, now, j);
    }
  }

  /** A pattern before the catch-all that accepts keeps the text from the
      host, whichever rule ends up deciding. */
  lemma PatternBeatsHost(raw: string, now: DateTime, j: nat)
    requires now.Valid()
    requires j < 11 && Recognise(DateRules[j], Trim(raw)).Some?
    ensures !ParseDate(Text(raw), now).value.Native?
  {
    var i, token := FirstPattern(Trim(raw), j);
    FirstAcceptingRuleDecides(raw, now, i, token);
    OnlyHostTextIsNative(ParseDate(Text(raw), now), token, now);
  }

  /** The rule the search settles on when pattern `j` accepts: it comes no
      later than `j`, so it is not the catch-all. */
  lemma FirstPattern(s: string, j: nat) returns (i: nat, token: DateToken)
    requires j < 11 && Recognise(DateRules[j], s).Some?
    ensures i <= j && Recognise(DateRules[i], s) == Some(token) && !token.NativeText?
    ensures forall k | 0 <= k < i :: Recognise(DateRules[k], s).None?
  {
    assert RecogniserFor(s)(DateRules[j]).Some?;
    var first := FirstMatch(DateRules, RecogniserFor(s)).value;
    i, token := first.0, first.1;
    assert i <= j;
    NotHostRule(i);
  }

  /** The catch-all comes last in the table. */
  lemma NotHostRule(i: nat)
    requires i < 11
    ensures DateRules[i] != NativeRule
  {
  }

  /** Only the catch-all's token is handed to the host. */
  lemma OnlyHostTextIsNative(r: Option<Outcome>, token: DateToken, now: DateTime)
    requires token.WellFormed() && now.Valid()
    requires r == Some(Interpret(token, now))
    ensures r.value.Native? <==> token.NativeText?
  {
  }

  /** When no pattern before the catch-all accepts, the trimmed text goes
      to the host. */
  lemma NativeToken(raw: string, now: DateTime)
    requires now.Valid()
    requires forall j | 0 <= j < 11 :: Recognise(DateRules[j], Trim(raw)).None?
    ensures ParseDate(Text(raw), now) == Some(Native(Trim(raw)))
  {
    var s := Trim(raw);
    assert Interpret(NativeText(s), now) == Native(s);
    assert Recognise(DateRules[11], s) == Some(NativeText(s));
    FirstAcceptingRuleDecides(raw, now, 11, NativeText(s));
  }

  /** Surrounding white space never matters: the parser trims first. */
  lemma SurroundingSpaceIgnored(raw: string, now: DateTime)
    requires now.Valid()
    ensures ParseDate(Text(Trim(raw)), now) == ParseDate(Text(raw), now)
  {
    TrimIdempotent(raw);
  }

  /** Text that starts with a digit never reaches the letter rules or the
      signed-count rules. */
  lemma LeadingDigitSkipsEarlyRules(s: string, j: nat)
    requires |s| >= 1 && IsDigit(s[0]) && j < 7
    ensures Recognise(DateRules[j], s).None?
  {
  }

  /** Text of two or more characters that starts with neither a digit nor a
      sign is left to the host. */
  lemma WordsAreLeftToTheHost(raw: string, now: DateTime)
    requires now.Valid()
    requires |Trim(raw)| >= 2 && !IsDigit(Trim(raw)[0]) && Trim(raw)[0] != '+' && Trim(raw)[0] != '-'
    ensures ParseDate(Text(raw), now) == Some(Native(Trim(raw)))
  {
    var s := Trim(raw);
    assert DigitPrefixLength(s) == 0;
    assert Recognise(CurrentRule, s).None? && Recognise(TomorrowRule, s).None?;
    assert Recognise(YesterdayRule, s).None? && Recognise(FirstDayRule, s).None?;
    assert Recognise(LastDayRule, s).None? && Recognise(DaysAheadRule, s).None?;
    assert Recognise(DaysBackRule, s).None? && Recognise(DayOfMonthRule, s).None?;
    assert Recognise(MonthDayRule, s).None? && Recognise(MonthDayYearRule, s).None?;
    assert Recognise(YearMonthDayRule, s).None?;
    NativeToken(raw, now);
  }

  // ---------------------------------------------------------------------
  // Single letters and relative days

  /** Every rule except `c` and the catch-all yields midnight. */
  lemma HandlersYieldMidnight(token: DateToken, now: DateTime)
    requires token.WellFormed() && now.Valid()
    requires !token.Current? && !token.NativeText?
    ensures var r := Interpret(token, now);
            r.Moment? && r.moment.hour == 0 && r.moment.minute == 0
            && r.moment.second == 0 && r.moment.millisecond == 0
  {
  }

  /** The single-letter rules in table order: both cases of the letter and
      the token its rule captures. */
  const Letters: seq<(char, char, DateToken)> := [
    ('c', 'C', Current), ('t', 'T', Tomorrow), ('y', 'Y', Yesterday),
    ('f', 'F', FirstDay), ('l', 'L', LastDay)
  ]

  /** A single letter of the table, in either case, is captured by its own
      rule and by no rule before it. */
  lemma LetterRecognised(s: string, i: nat)
    requires i < 5 && IsLetter(s, Letters[i].0, Letters[i].1)
    ensures Recognise(DateRules[i], s) == Some(Letters[i].2)
    ensures forall j | 0 <= j < i :: Recognise(DateRules[j], s).None?
  {
    // One empty branch per letter: each fixes `i`, so that `DateRules[i]`
    // and `Letters[i]` unfold to one rule and one letter pair.
    if i == 0 {
    } else if i == 1 {
    } else if i == 2 {
    } else if i == 3 {
    } else {
    }
  }

  /** A single letter of the table is handled by its own rule. */
  lemma LetterToken(raw: string, now: DateTime, i: nat)
    requires now.Valid()
    requires i < 5 && IsLetter(Trim(raw), Letters[i].0, Letters[i].1)
    ensures ParseDate(Text(raw), now) == Some(Interpret(Letters[i].2, now))
  {
    LetterRecognised(Trim(raw), i);
    FirstAcceptingRuleDecides(raw, now, i, Letters[i].2);
  }

  /** `c` is now itself, time of day included. */
  lemma CurrentIsNow(raw: string, now: DateTime)
    requires now.Valid()
    requires IsLetter(Trim(raw), 'c', 'C')
    ensures ParseDate(Text(raw), now) == Some(Moment(now))
  {
    assert Interpret(Current, now) == Moment(now);
    LetterToken(raw, now, 0);
  }

  /** `t` is the start of the day after now. */
  lemma TomorrowIsNextDay(raw: string, now: DateTime)
    requires now.Valid()
    requires IsLetter(Trim(raw), 't', 'T')
    ensures var r := ParseDate(Text(raw), now).value;
            && r.Moment? && r.moment == Midnight(r.moment)
            && DayNumber(r.moment.date) == DayNumber(now.date) + 1
  {
    assert Interpret(Letters[1].2, now) == Moment(StartOfDay(now, now.date.day + 1));
    LetterToken(raw, now, 1);
  }

  /** `y` is the start of the day before now. */
  lemma YesterdayIsPreviousDay(raw: string, now: DateTime)
    requires now.Valid()
    requires IsLetter(Trim(raw), 'y', 'Y')
    ensures var r := ParseDate(Text(raw), now).value;
            && r.Moment? && r.moment == Midnight(r.moment)
            && DayNumber(r.moment.date) == DayNumber(now.date) - 1
  {
    assert Interpret(Letters[2].2, now) == Moment(StartOfDay(now, now.date.day - 1));
    LetterToken(raw, now, 2);
  }

  /** `f` is the start of the first day of the current month. */
  lemma FirstDayOfMonth(raw: string, now: DateTime)
    requires now.Valid()
    requires IsLetter(Trim(raw), 'f', 'F')
    ensures ParseDate(Text(raw), now)
            == Some(Moment(DateTime(Date(now.date.year, now.date.month, 1), 0, 0, 0, 0)))
  {
    assert Interpret(Letters[3].2, now) == Moment(StartOfDay(now, 1));
    LetterToken(raw, now, 3);
  }

  /** `l` is the start of the last day of the current month. For the years
      0 to 99 it takes the month length of 1900 to 1999, as the `Date`
      constructor does, which differs only in February of year 0. */
  lemma LastDayIsMonthEnd(raw: string, now: DateTime)
    requires now.Valid()
    requires IsLetter(Trim(raw), 'l', 'L')
    ensures ParseDate(Text(raw), now)
            == Some(Moment(DateTime(Date(now.date.year, now.date.month, LastDayOfMonth(now)), 0, 0, 0, 0)))
    ensures LastDayOfMonth(now) == DaysInMonth(ConstructorYear(now.date.year), now.date.month)
    ensures !(now.date.year == 0 && now.date.month == 2) ==>
            LastDayOfMonth(now) == DaysInMonth(now.date.year, now.date.month)
  {
    assert Interpret(Letters[4].2, now) == Moment(StartOfDay(now, LastDayOfMonth(now)));
    LetterToken(raw, now, 4);
  }

  /** `+N` is captured by the days-ahead rule and `-N` by the days-back
      rule, whatever follows the digits, and by no rule before them. */
  lemma SignedCountRecognised(s: string, sign: char, digits: string, rest: string)
    requires sign == '+' || sign == '-'
    requires IsDigits(digits) && |digits| >= 1
    requires |rest| == 0 || !IsDigit(rest[0])
    requires s == [sign] + digits + rest
    ensures sign == '+' ==> Recognise(DateRules[5], s) == Some(DaysAhead(ParseDecimal(digits)))
    ensures sign == '-' ==> Recognise(DateRules[6], s) == Some(DaysBack(ParseDecimal(digits)))
    ensures forall j | 0 <= j < (if sign == '+' then 5 else 6) :: Recognise(DateRules[j], s).None?
  {
    SignedCountOf(sign, digits, rest);
    if sign == '-' {
      assert SignedCount(s, '+').None?;
    }
  }

  /** `+N` and `-N` are handled by the signed-count rules. */
  lemma SignedCountToken(raw: string, sign: char, digits: string, rest: string, now: DateTime)
    requires now.Valid()
    requires sign == '+' || sign == '-'
    requires IsDigits(digits) && |digits| >= 1
    requires |rest| == 0 || !IsDigit(rest[0])
    requires Trim(raw) == [sign] + digits + rest
    ensures sign == '+' ==> ParseDate(Text(raw), now) == Some(Interpret(DaysAhead(ParseDecimal(digits)), now))
    ensures sign == '-' ==> ParseDate(Text(raw), now) == Some(Interpret(DaysBack(ParseDecimal(digits)), now))
  {
    SignedCountRecognised(Trim(raw), sign, digits, rest);
    if sign == '+' {
      FirstAcceptingRuleDecides(raw, now, 5, DaysAhead(ParseDecimal(digits)));
    } else {
      FirstAcceptingRuleDecides(raw, now, 6, DaysBack(ParseDecimal(digits)));
    }
  }

  /** The handlers of `+N` and `-N` move now by N days and go to midnight. */
  lemma ShiftMeaning(n: nat, now: DateTime)
    requires now.Valid()
    ensures var r := Interpret(DaysAhead(n), now);
            && r.Moment? && r.moment == Midnight(r.moment)
            && DayNumber(r.moment.date) == DayNumber(now.date) + n
    ensures var r := Interpret(DaysBack(n), now);
            && r.Moment? && r.moment == Midnight(r.moment)
            && DayNumber(r.moment.date) == DayNumber(now.date) - n
  {
  }

  /** `+N` and `-N` (anything may follow the digits) are the start of the
      day N days after or before now. */
  lemma RelativeDays(raw: string, sign: char, digits: string, rest: string, now: DateTime)
    requires now.Valid()
    requires sign == '+' || sign == '-'
    requires IsDigits(digits) && |digits| >= 1
    requires |rest| == 0 || !IsDigit(rest[0])
    requires Trim(raw) == [sign] + digits + rest
    ensures var r := ParseDate(Text(raw), now).value;
            && r.Moment? && r.moment == Midnight(r.moment)
            && DayNumber(r.moment.date) - DayNumber(now.date)
               == (if sign == '+' then 1 else -1) * ParseDecimal(digits)
  {
    SignedCountToken(raw, sign, digits, rest, now);
    ShiftMeaning(ParseDecimal(digits), now);
  }

  // ---------------------------------------------------------------------
  // Digit forms

  /** A bare one- or two-digit string is captured by the day-of-month rule
      and by no rule before it. */
  lemma BareDigitsRecognised(s: string)
    requires IsDigits(s) && 1 <= |s| <= 2
    ensures Recognise(DateRules[7], s) == Some(DayOfMonth(ParseDecimal(s)))
    ensures forall j | 0 <= j < 7 :: Recognise(DateRules[j], s).None?
  {
    forall j | 0 <= j < 7 ensures Recognise(DateRules[j], s).None? {
      LeadingDigitSkipsEarlyRules(s, j);
    }
  }

  /** A bare one- or two-digit string is handled by the day-of-month rule. */
  lemma BareDigitsToken(s: string, now: DateTime)
    requires now.Valid()
    requires IsDigits(s) && 1 <= |s| <= 2
    ensures ParseDate(Text(s), now) == Some(Interpret(DayOfMonth(ParseDecimal(s)), now))
  {
    TrimUnchanged(s);
    BareDigitsRecognised(s);
    FirstAcceptingRuleDecides(s, now, 7, DayOfMonth(ParseDecimal(s)));
  }

  /** A bare one- or two-digit string is always a day of the current month,
      never a month. */
  lemma BareDigitsAreDayOfMonth(s: string, now: DateTime)
    requires now.Valid()
    requires IsDigits(s) && 1 <= |s| <= 2
    ensures var r := ParseDate(Text(s), now).value;
            && r.Moment? && r.moment == Midnight(r.moment)
            && DayNumber(r.moment.date) == FirstOfMonth(now.date.year, now.date.month) + ParseDecimal(s) - 1
    ensures 1 <= ParseDecimal(s) <= DaysInMonth(now.date.year, now.date.month) ==>
            ParseDate(Text(s), now).value.moment.date == now.date.(day := ParseDecimal(s))
  {
    var v := ParseDecimal(s);
    assert Interpret(DayOfMonth(v), now) == Moment(StartOfDay(now, v));
    BareDigitsToken(s, now);
  }

  /** `MM/` and `MM/DD` are captured by the month-day rule and by no rule
      before it. */
  lemma MonthDayRecognised(s: string, m: string, c: char, d: string)
    requires IsDigits(m) && 1 <= |m| <= 2 && IsDateSeparator(c) && IsDigits(d) && |d| <= 2
    requires s == m + [c] + d
    ensures Recognise(DateRules[8], s)
            == Some(MonthDay(ParseDecimal(m), if |d| == 0 then None else Some(ParseDecimal(d))))
    ensures forall j | 0 <= j < 8 :: Recognise(DateRules[j], s).None?
  {
    MatchMonthDayOf(m, c, d);
    assert s[0] == m[0] && s[|m|] == c;
    forall j | 0 <= j < 7 ensures Recognise(DateRules[j], s).None? {
      LeadingDigitSkipsEarlyRules(s, j);
    }
  }

  /** `MM/` and `MM/DD` are handled by the month-day rule. */
  lemma MonthDayToken(raw: string, m: string, c: char, d: string, now: DateTime)
    requires now.Valid()
    requires IsDigits(m) && 1 <= |m| <= 2 && IsDateSeparator(c) && IsDigits(d) && |d| <= 2
    requires Trim(raw) == m + [c] + d
    ensures ParseDate(Text(raw), now)
            == Some(Interpret(MonthDay(ParseDecimal(m), if |d| == 0 then None else Some(ParseDecimal(d))), now))
  {
    MonthDayRecognised(Trim(raw), m, c, d);
    FirstAcceptingRuleDecides(raw, now, 8, MonthDay(ParseDecimal(m), if |d| == 0 then None else Some(ParseDecimal(d))));
  }

  /** The month-day handler picks day `day` (1 when absent) of month
      `month` of the current year, provided today's day of the month exists
      in that month. */
  lemma MonthDayMeaning(month: nat, day: Option<nat>, now: DateTime)
    requires now.Valid()
    ensures var r := Interpret(MonthDay(month, day), now);
            && r.Moment? && r.moment == Midnight(r.moment)
            && (&& 1 <= month <= 12
                && now.date.day <= DaysInMonth(now.date.year, month)
                && 1 <= day.GetOr(1) <= DaysInMonth(now.date.year, month)
                ==> r.moment.date == Date(now.date.year, month, day.GetOr(1)))
  {
  }

  /** `setMonth` keeps the day of the month; when that day does not exist
      in the target month the date rolls over into the month after it. */
  lemma SetMonthRollsOver(now: DateTime, month: int)
    requires now.Valid()
    requires 1 <= month <= 12 && now.date.day > DaysInMonth(now.date.year, month)
    ensures var (y, m) := NextMonth(now.date.year, month);
            SetMonth(now, month - 1).date == Date(y, m, now.date.day - DaysInMonth(now.date.year, month))
  {
    var t := SetMonth(now, month - 1);
    var (y, m) := NextMonth(now.date.year, month);
    MonthStep(now.date.year, month);
    assert (month - 1) / 12 == 0 && (month - 1) % 12 == month - 1;
    DayNumberInjective(t.date, Date(y, m, now.date.day - DaysInMonth(now.date.year, month)));
  }

  /** When today's day of the month does not exist in the target month,
      `setMonth` rolls over into the following month before `setDate` picks
      the day, so the result lies one month late. */
  lemma MonthDayRollsOver(month: nat, day: Option<nat>, now: DateTime)
    requires now.Valid()
    requires 1 <= month <= 12 && now.date.day > DaysInMonth(now.date.year, month)
    ensures var r := Interpret(MonthDay(month, day), now);
            var (y, m) := NextMonth(now.date.year, month);
            r.Moment? && DayNumber(r.moment.date) == FirstOfMonth(y, m) + day.GetOr(1) - 1
  {
    var d := day.GetOr(1);
    assert Interpret(MonthDay(month, day), now) == Moment(StartOfMonthDay(now, month - 1, d));
    SetMonthRollsOver(now, month);
  }

  /** `MM/` and `MM/DD` read as a day of the current year. */
  lemma MonthDayForm(raw: string, m: string, c: char, d: string, now: DateTime)
    requires now.Valid()
    requires IsDigits(m) && 1 <= |m| <= 2 && IsDateSeparator(c) && IsDigits(d) && |d| <= 2
    requires Trim(raw) == m + [c] + d
    requires 1 <= ParseDecimal(m) <= 12 && now.date.day <= DaysInMonth(now.date.year, ParseDecimal(m))
    requires |d| > 0 ==> 1 <= ParseDecimal(d) <= DaysInMonth(now.date.year, ParseDecimal(m))
    ensures ParseDate(Text(raw), now)
            == Some(Moment(DateTime(Date(now.date.year, ParseDecimal(m), if |d| == 0 then 1 else ParseDecimal(d)), 0, 0, 0, 0)))
  {
    var day := if |d| == 0 then None else Some(ParseDecimal(d));
    MonthDayToken(raw, m, c, d, now);
    MonthDayMeaning(ParseDecimal(m), day, now);
  }


  // ---------------------------------------------------------------------
  // Dates with a year

  /** Setting year, month and day in that order from now lands on the
      calendar day asked for, as long as neither today's day nor the
      requested day falls outside the months involved. */
  lemma StartOfYearMonthDay(now: DateTime, year: int, month: int, day: int)
    requires now.Valid()
    ensures var r := StartOfMonthDay(SetFullYear(now, year), month - 1, day);
            && r == Midnight(r)
            && (&& 1 <= month <= 12
                && now.date.day <= DaysInMonth(year, now.date.month)
                && now.date.day <= DaysInMonth(year, month)
                && 1 <= day <= DaysInMonth(year, month)
                ==> r.date == Date(year, month, day))
  {
  }

  /** The year a `MM/DD/YY` group sets: none keeps the current year, two
      digits follow the sliding window of the current year, three or four
      digits are used as written. */
  lemma TokenYearMeaning(y: string, now: DateTime)
    requires now.Valid()
    requires IsDigits(y) && (|y| == 0 || 2 <= |y| <= 4)
    ensures |y| == 0 ==> TokenYear(Optional(y), now).None?
    ensures 3 <= |y| ==> TokenYear(Optional(y), now) == Some(ParseDecimal(y))
    ensures |y| == 2 && 1000 <= now.date.year <= 9999 ==>
            var v := ParseDecimal(y);
            TokenYear(Optional(y), now) == Some((if v > now.date.year % 100 + 10 then 1900 else 2000) + v)
  {
    if |y| == 2 && 1000 <= now.date.year <= 9999 {
      FullYearOfTwoDigits(y, now.date.year);
    }
  }

  /** `MM/DD/`, `MM/DD/YY`, `MM/DD/YYY` and `MM/DD/YYYY` are captured by the
      month-day-year rule and by no rule before it. */
  lemma MonthDayYearRecognised(s: string, m: string, c1: char, d: string, c2: char, y: string)
    requires IsDigits(m) && 1 <= |m| <= 2 && IsDateSeparator(c1)
    requires IsDigits(d) && 1 <= |d| <= 2 && IsDateSeparator(c2)
    requires IsDigits(y) && (|y| == 0 || 2 <= |y| <= 4)
    requires s == m + [c1] + d + [c2] + y
    ensures Recognise(DateRules[9], s) == Some(MonthDayYear(ParseDecimal(m), ParseDecimal(d), Optional(y)))
    ensures forall j | 0 <= j < 9 :: Recognise(DateRules[j], s).None?
  {
    var tail := d + [c2] + y;
    assert s == m + [c1] + tail;
    MatchMonthDayYearOf(m, c1, d, c2, y);
    assert tail[|d|] == c2;
    MonthDayPrefixSkipsShortForms(s, m, c1, tail, |d|);
  }

  /** A month group, a separator and a tail that is not all digits is too
      much for the letter, signed-count, day-of-month and month-day
      patterns. */
  lemma MonthDayPrefixSkipsShortForms(s: string, m: string, c: char, tail: string, k: nat)
    requires IsDigits(m) && 1 <= |m| <= 2 && IsDateSeparator(c)
    requires s == m + [c] + tail && k < |tail| && !IsDigit(tail[k])
    ensures forall j | 0 <= j < 9 :: Recognise(DateRules[j], s).None?
  {
    assert s[0] == m[0] && s[|m|] == c;
    forall j | 0 <= j < 7 ensures Recognise(DateRules[j], s).None? {
      LeadingDigitSkipsEarlyRules(s, j);
    }
    NotAllDigitsSkipsDayOfMonth(s, |m|);
    MonthDayNeedsDigitsAfter(s, m, c, tail, k);
  }

  /** The day-of-month pattern wants digits only. */
  lemma NotAllDigitsSkipsDayOfMonth(s: string, i: nat)
    requires i < |s| && !IsDigit(s[i])
    ensures Recognise(DateRules[7], s).None?
  {
    assert DateRules[7] == DayOfMonthRule;
  }

  /** The month-day pattern wants digits only after its separator. */
  lemma MonthDayNeedsDigitsAfter(s: string, m: string, c: char, tail: string, k: nat)
    requires IsDigits(m) && 1 <= |m| <= 2 && IsDateSeparator(c)
    requires s == m + [c] + tail && k < |tail| && !IsDigit(tail[k])
    ensures Recognise(DateRules[8], s).None?
  {
    assert DateRules[8] == MonthDayRule;
    DatePieceOf(m, c, tail, 1, 2);
    assert !IsDigits(tail);
  }

  /** `MM/DD/Y…` is handled by the month-day-year rule. */
  lemma MonthDayYearToken(raw: string, m: string, c1: char, d: string, c2: char, y: string, now: DateTime)
    requires now.Valid()
    requires IsDigits(m) && 1 <= |m| <= 2 && IsDateSeparator(c1)
    requires IsDigits(d) && 1 <= |d| <= 2 && IsDateSeparator(c2)
    requires IsDigits(y) && (|y| == 0 || 2 <= |y| <= 4)
    requires Trim(raw) == m + [c1] + d + [c2] + y
    ensures ParseDate(Text(raw), now)
            == Some(Interpret(MonthDayYear(ParseDecimal(m), ParseDecimal(d), Optional(y)), now))
  {
    MonthDayYearRecognised(Trim(raw), m, c1, d, c2, y);
    FirstAcceptingRuleDecides(raw, now, 9, MonthDayYear(ParseDecimal(m), ParseDecimal(d), Optional(y)));
  }

  /** The month-day-year handler moves to the token's year (the current year
      when it has none), then picks month and day; when neither today's day
      nor the requested day falls outside the months involved, the result is
      that calendar day. */
  lemma MonthDayYearMeaning(month: nat, day: nat, year: Option<string>, now: DateTime)
    requires now.Valid()
    requires year.Some? ==> IsDigits(year.value) && 2 <= |year.value| <= 4
    ensures var r := Interpret(MonthDayYear(month, day, year), now);
            var y := TokenYear(year, now).GetOr(now.date.year);
            && r.Moment? && r.moment == Midnight(r.moment)
            && (&& 1 <= month <= 12
                && now.date.day <= DaysInMonth(y, now.date.month)
                && now.date.day <= DaysInMonth(y, month)
                && 1 <= day <= DaysInMonth(y, month)
                ==> r.moment.date == Date(y, month, day))
  {
    var y := TokenYear(year, now).GetOr(now.date.year);
    MonthDayYearHandler(month, day, year, now);
    YearBaseSetsTokenYear(year, now);
    StartOfYearMonthDay(now, y, month, day);
  }

  /** The month-day-year handler starts from now moved to the token's year. */
  lemma MonthDayYearHandler(month: nat, day: nat, year: Option<string>, now: DateTime)
    requires now.Valid()
    requires year.Some? ==> IsDigits(year.value) && 2 <= |year.value| <= 4
    ensures Interpret(MonthDayYear(month, day, year), now)
            == Moment(StartOfMonthDay(YearBase(year, now), month - 1, day))
  {
    var token := MonthDayYear(month, day, year);
    assert token.month == month && token.day == day && token.optYear == year;
  }

  /** Without a year group `setFullYear` is skipped, which is the same as
      setting the current year again. */
  lemma YearBaseSetsTokenYear(year: Option<string>, now: DateTime)
    requires now.Valid()
    requires year.Some? ==> IsDigits(year.value) && 2 <= |year.value| <= 4
    ensures YearBase(year, now) == SetFullYear(now, TokenYear(year, now).GetOr(now.date.year))
  {
  }

  /** `MM/DD/Y…` read as a calendar day of the year the group names. */
  lemma MonthDayYearForm(raw: string, m: string, c1: char, d: string, c2: char, y: string, now: DateTime)
    requires now.Valid()
    requires IsDigits(m) && 1 <= |m| <= 2 && IsDateSeparator(c1)
    requires IsDigits(d) && 1 <= |d| <= 2 && IsDateSeparator(c2)
    requires IsDigits(y) && (|y| == 0 || 2 <= |y| <= 4)
    requires Trim(raw) == m + [c1] + d + [c2] + y
    ensures var year := TokenYear(Optional(y), now).GetOr(now.date.year);
            var month, day := ParseDecimal(m), ParseDecimal(d);
            && 1 <= month <= 12
            && now.date.day <= DaysInMonth(year, now.date.month)
            && now.date.day <= DaysInMonth(year, month)
            && 1 <= day <= DaysInMonth(year, month)
            ==> ParseDate(Text(raw), now) == Some(Moment(DateTime(Date(year, month, day), 0, 0, 0, 0)))
  {
    MonthDayYearToken(raw, m, c1, d, c2, y, now);
    MonthDayYearMeaning(ParseDecimal(m), ParseDecimal(d), Optional(y), now);
  }

  /** `YYYY-MM-DD` is captured by the year-month-day rule and by no rule
      before it. */
  lemma YearMonthDayRecognised(s: string, y: string, c1: char, m: string, c2: char, d: string)
    requires IsDigits(y) && |y| == 4 && IsDateSeparator(c1)
    requires IsDigits(m) && 1 <= |m| <= 2 && IsDateSeparator(c2)
    requires IsDigits(d) && 1 <= |d| <= 2
    requires s == y + [c1] + m + [c2] + d
    ensures Recognise(DateRules[10], s) == Some(YearMonthDay(ParseDecimal(y), ParseDecimal(m), ParseDecimal(d)))
    ensures forall j | 0 <= j < 10 :: Recognise(DateRules[j], s).None?
  {
    MatchYearMonthDayOf(y, c1, m, c2, d);
    var tail := m + [c2] + d;
    assert s == y + [c1] + tail;
    assert s[0] == y[0];
    forall j | 0 <= j < 7 ensures Recognise(DateRules[j], s).None? {
      LeadingDigitSkipsEarlyRules(s, j);
    }
    FourDigitsSkipShortForms(s, y, c1, tail);
  }

  /** A leading run of four digits is too long for the day-of-month,
      month-day and month-day-year patterns. */
  lemma FourDigitsSkipShortForms(s: string, y: string, c: char, tail: string)
    requires IsDigits(y) && |y| == 4 && IsDateSeparator(c)
    requires s == y + [c] + tail
    ensures forall j | 7 <= j < 10 :: Recognise(DateRules[j], s).None?
  {
    assert s == y + ([c] + tail);
    DigitPrefixOfJoin(y, [c] + tail);
    assert DatePiece(s, 1, 2).None?;
    assert Recognise(DateRules[7], s).None?;
    assert Recognise(DateRules[8], s).None?;
    assert Recognise(DateRules[9], s).None?;
  }

  /** `YYYY-MM-DD` is handled by the year-month-day rule. */
  lemma YearMonthDayToken(raw: string, y: string, c1: char, m: string, c2: char, d: string, now: DateTime)
    requires now.Valid()
    requires IsDigits(y) && |y| == 4 && IsDateSeparator(c1)
    requires IsDigits(m) && 1 <= |m| <= 2 && IsDateSeparator(c2)
    requires IsDigits(d) && 1 <= |d| <= 2
    requires Trim(raw) == y + [c1] + m + [c2] + d
    ensures ParseDate(Text(raw), now)
            == Some(Interpret(YearMonthDay(ParseDecimal(y), ParseDecimal(m), ParseDecimal(d)), now))
  {
    YearMonthDayRecognised(Trim(raw), y, c1, m, c2, d);
    FirstAcceptingRuleDecides(raw, now, 10, YearMonthDay(ParseDecimal(y), ParseDecimal(m), ParseDecimal(d)));
  }

  /** The year-month-day handler sets year, month and day in that order;
      when neither today's day nor the requested day falls outside the
      months involved, the result is that calendar day. */
  lemma YearMonthDayMeaning(year: nat, month: nat, day: nat, now: DateTime)
    requires now.Valid()
    ensures var r := Interpret(YearMonthDay(year, month, day), now);
            && r.Moment? && r.moment == Midnight(r.moment)
            && (&& 1 <= month <= 12
                && now.date.day <= DaysInMonth(year, now.date.month)
                && now.date.day <= DaysInMonth(year, month)
                && 1 <= day <= DaysInMonth(year, month)
                ==> r.moment.date == Date(year, month, day))
  {
    YearMonthDayHandler(year, month, day, now);
    StartOfYearMonthDay(now, year, month, day);
  }

  /** The year-month-day handler starts from now moved to the token's year. */
  lemma YearMonthDayHandler(year: nat, month: nat, day: nat, now: DateTime)
    requires now.Valid()
    ensures Interpret(YearMonthDay(year, month, day), now)
            == Moment(StartOfMonthDay(SetFullYear(now, year), month - 1, day))
  {
    var token := YearMonthDay(year, month, day);
    assert token.year == year && token.month == month && token.day == day;
  }

  /** `YYYY-MM-DD` read as that calendar day. */
  lemma YearMonthDayForm(raw: string, y: string, c1: char, m: string, c2: char, d: string, now: DateTime)
    requires now.Valid()
    requires IsDigits(y) && |y| == 4 && IsDateSeparator(c1)
    requires IsDigits(m) && 1 <= |m| <= 2 && IsDateSeparator(c2)
    requires IsDigits(d) && 1 <= |d| <= 2
    requires Trim(raw) == y + [c1] + m + [c2] + d
    ensures var year, month, day := ParseDecimal(y), ParseDecimal(m), ParseDecimal(d);
            && 1 <= month <= 12
            && now.date.day <= DaysInMonth(year, now.date.month)
            && now.date.day <= DaysInMonth(year, month)
            && 1 <= day <= DaysInMonth(year, month)
            ==> ParseDate(Text(raw), now) == Some(Moment(DateTime(Date(year, month, day), 0, 0, 0, 0)))
  {
    YearMonthDayToken(raw, y, c1, m, c2, d, now);
    YearMonthDayMeaning(ParseDecimal(y), ParseDecimal(m), ParseDecimal(d), now);
  }
}

=== FILE: heuristics.dfy ===
/** The helper arithmetic of index.js: sliding-window expansion of two-digit
    years and the am/pm and business-hour corrections of a parsed hour. */
module Heuristics {
  import opened Wrappers
  import opened Chars
  import opened Patterns

  /** `parseInt(year.toString().substring(2), 10)`; None stands for NaN,
      which `parseInt` returns when the slice is empty. */
  function ShortYear(year: int): (r: Option<nat>)
    ensures 1000 <= year <= 9999 ==> r == Some(year % 100)
  {
    var text := if year < 0 then "-" + Decimal(-year) else Decimal(year);
    assert 1000 <= year <= 9999 ==> |text| == 4 && ParseDecimal(text[2..]) == year % 100 by {
      if 1000 <= year <= 9999 {
        FourDigitSuffix(year);
      }
    }
    if |text| <= 2 then None
    else
      assert IsDigits(text[2..]) by {
        if year < 0 {
          assert text[2..] == Decimal(-year)[1..];
        } else {
          assert forall i | 0 <= i < |text| - 2 :: text[2..][i] == text[i + 2];
        }
      }
      Some(ParseDecimal(text[2..]))
  }

  /** `calculateFullYear(input)`: prefixes `"19"` when the input exceeds the
      current short year by more than ten, `"20"` otherwise (also when the
      short year is NaN, since every comparison with NaN is false). */
  function CalculateFullYear(input: string, currentYear: int): (r: string)
    requires IsDigits(input) && |input| > 0
    ensures IsDigits(r)
    ensures r == "19" + input || r == "20" + input
    ensures r == "19" + input <==> (ShortYear(currentYear).Some?
                                    && ParseDecimal(input) > ShortYear(currentYear).value + 10)
  {
    var short := ShortYear(currentYear);
    var prefix := if short.Some? && ParseDecimal(input) > short.value + 10 then "19" else "20";
    var r := prefix + input;
    assert IsDigits(r) by { ParseDecimalAppend(prefix, input); }
    assert ("19" + input)[1] == '9' && ("20" + input)[1] == '0';
    r
  }

  /** For a two-digit input in a four-digit current year, the expanded year
      keeps the two digits and picks the century by the sliding window. */
  lemma {:induction false} FullYearOfTwoDigits(input: string, currentYear: int)
    requires IsDigits(input) && |input| == 2
    requires 1000 <= currentYear <= 9999
    ensures var v := ParseDecimal(input);
            ParseDecimal(CalculateFullYear(input, currentYear))
              == (if v > currentYear % 100 + 10 then 1900 else 2000) + v
  {
    if CalculateFullYear(input, currentYear) == "19" + input {
      ParseDecimalAppend("19", input);
      assert ParseDecimal("19") == 19;
    } else {
      ParseDecimalAppend("20", input);
      assert ParseDecimal("20") == 20;
    }
  }

  /** In the years 2000 to 2088 a two-digit year lands in the hundred-year
      window that ends ten years after the current year. */
  lemma SlidingWindow(input: string, currentYear: int)
    requires IsDigits(input) && |input| == 2
    requires 2000 <= currentYear <= 2088
    ensures currentYear - 89 <= ParseDecimal(CalculateFullYear(input, currentYear)) <= currentYear + 10
    ensures ParseDecimal(CalculateFullYear(input, currentYear)) % 100 == ParseDecimal(input)
  {
    var y := ParseDecimal(CalculateFullYear(input, currentYear));
    FullYearOfTwoDigits(input, currentYear);
    var v := ParseDecimal(input);
    assert v < 100 by { DecimalPrefixBound(input, 2); }
    assert y == (if v > currentYear % 100 + 10 then 1900 else 2000) + v;
    WindowArithmetic(v, currentYear);
  }

  lemma WindowArithmetic(v: int, currentYear: int)
    requires 0 <= v < 100 && 2000 <= currentYear <= 2088
    ensures var y := (if v > currentYear % 100 + 10 then 1900 else 2000) + v;
            currentYear - 89 <= y <= currentYear + 10 && y % 100 == v
  {
    assert currentYear % 100 == currentYear - 2000;
  }

  /** `adjustForBusinessHours(hour)`: a bare hour from 1 to 6 means the
      afternoon. */
  function AdjustForBusinessHours(hour: string): (r: nat)
    requires IsDigits(hour) && |hour| > 0
    ensures r == ParseDecimal(hour) || r == ParseDecimal(hour) + 12
    ensures r == ParseDecimal(hour) + 12 <==> 1 <= ParseDecimal(hour) <= 6
    ensures !(1 <= r <= 6)
  {
    var h := ParseDecimal(hour);
    if 1 <= h <= 6 then h + 12 else h
  }

  /** Adjusting an already adjusted hour changes nothing. */
  lemma BusinessHoursIdempotent(hour: string)
    requires IsDigits(hour) && |hour| > 0
    ensures AdjustForBusinessHours(Decimal(AdjustForBusinessHours(hour))) == AdjustForBusinessHours(hour)
  {
  }

  /** The meridiem starts with `p` or `P` (`toLowerCase().startsWith('p')`). */
  predicate IsAfternoon(meridiem: Option<string>) {
    Truthy(meridiem) && (meridiem.value[0] == 'p' || meridiem.value[0] == 'P')
  }

  /** `adjustForMeridiem(hours, meridiem)`: a `p` meridiem adds twelve with no
      upper guard; an `a` meridiem or a leading zero keeps the hour as
      written; a bare hour without leading zero gets the business-hour rule. */
  function AdjustForMeridiem(hours: string, meridiem: Option<string>): (r: nat)
    requires IsDigits(hours) && |hours| > 0
    ensures r == ParseDecimal(hours) || r == ParseDecimal(hours) + 12
    ensures r == ParseDecimal(hours) + 12
            <==> (|| IsAfternoon(meridiem)
                  || (!Truthy(meridiem) && hours[0] != '0' && 1 <= ParseDecimal(hours) <= 6))
    ensures IsAfternoon(meridiem) ==> r >= 12
    ensures !Truthy(meridiem) && hours[0] != '0' ==> !(1 <= r <= 6)
  {
    if IsAfternoon(meridiem) then ParseDecimal(hours) + 12
    else if !Truthy(meridiem) && hours[0] != '0' then AdjustForBusinessHours(hours)
    else ParseDecimal(hours)
  }

  /** The behaviours the test-suite of the library pins down. */
  lemma MeridiemExamples()
    ensures AdjustForMeridiem("2", None) == 14
    ensures AdjustForMeridiem("02", None) == 2
    ensures AdjustForMeridiem("15", None) == 15
    ensures AdjustForMeridiem("2", Some("a")) == 2
    ensures AdjustForMeridiem("2", Some("pm")) == 14
    ensures AdjustForMeridiem("12", Some("PM")) == 24
    ensures AdjustForMeridiem("12", Some("am")) == 12
  {
    assert "02"[..1] == "0";
    assert "15"[..1] == "1";
    assert "12"[..1] == "1";
  }
}

=== FILE: patterns.dfy ===
/** Recognisers for the pieces the regular expressions of both rule tables
    share: single case-insensitive letters, signed counts, the separator
    classes and the am/pm suffix. */
module Patterns {
  import opened Wrappers
  import opened Chars

  /** `/^x$/i` for a letter whose two cases are `lower` and `upper`. */
  predicate IsLetter(s: string, lower: char, upper: char) {
    |s| == 1 && (s[0] == lower || s[0] == upper)
  }

  /** `[\/\\\-.,;]`: the separators of the date forms. */
  predicate IsDateSeparator(c: char) {
    c == '/' || c == '\\' || c == '-' || c == '.' || c == ',' || c == ';'
  }

  /** `[:.,;\-]`: the separators of the clock form. */
  predicate IsTimeSeparator(c: char) {
    c == ':' || c == '.' || c == ',' || c == ';' || c == '-'
  }

  /** `/^<sign>(\d+)/`: the sign followed by a digit run, anything may follow;
      yields the (greedy, hence maximal) digit run. */
  function SignedCount(s: string, sign: char): (r: Option<string>)
    ensures r.None? <==> !(|s| >= 2 && s[0] == sign && IsDigit(s[1]))
    ensures r.Some? ==> && IsDigits(r.value) && 1 <= |r.value| < |s|
                        && s[0] == sign && s[1..1 + |r.value|] == r.value
                        && (1 + |r.value| < |s| ==> !IsDigit(s[1 + |r.value|]))
  {
    if |s| >= 2 && s[0] == sign && IsDigit(s[1]) then
      var k := DigitPrefixLength(s[1..]);
      assert s[1..1 + k] == s[1..][..k];
      Some(s[1..1 + k])
    else None
  }

  /** A signed count followed by text that does not continue the digit run
      is read in full. */
  lemma SignedCountOf(sign: char, digits: string, rest: string)
    requires IsDigits(digits) && |digits| >= 1
    requires |rest| == 0 || !IsDigit(rest[0])
    ensures SignedCount([sign] + digits + rest, sign) == Some(digits)
  {
    var s := [sign] + digits + rest;
    assert s[1..] == digits + rest;
    DigitPrefixOfJoin(digits, rest);
    assert s[1..1 + |digits|] == digits;
  }

  /** An optional capture group: the empty piece stands for an absent group. */
  function Optional(s: string): (r: Option<string>)
    ensures r.None? <==> |s| == 0
    ensures r.Some? ==> r.value == s
  {
    if |s| == 0 then None else Some(s)
  }

  /** The JavaScript truthiness of an optional capture group. */
  predicate Truthy(group: Option<string>) {
    group.Some? && |group.value| > 0
  }

  predicate IsAmPmLetter(c: char) {
    c == 'a' || c == 'A' || c == 'p' || c == 'P'
  }

  /** `([ap]m?)` under the `i` flag, matched in full. */
  predicate IsMeridiem(s: string) {
    && 1 <= |s| <= 2 && IsAmPmLetter(s[0])
    && (|s| == 2 ==> (s[1] == 'm' || s[1] == 'M'))
  }

  /** `([ap]m?)?` at the start of `s`, greedy: the longest meridiem prefix. */
  function MeridiemPrefix(s: string): (r: Option<string>)
    ensures r.Some? ==> IsMeridiem(r.value) && |r.value| <= |s| && r.value == s[..|r.value|]
    ensures r.None? <==> (|s| == 0 || !IsAmPmLetter(s[0]))
  {
    if |s| >= 1 && IsAmPmLetter(s[0]) then
      if |s| >= 2 && (s[1] == 'm' || s[1] == 'M') then Some(s[..2]) else Some(s[..1])
    else None
  }
}

=== FILE: rules.dfy ===
/** The rule-matching loop shared by the date and time parsers: an ordered
    table of rules is searched front to back and the first rule whose
    recogniser accepts the input decides the result. */
module RuleTable {
  import opened Wrappers

  /** Position and token of the first rule of `rules` that `recognise`
      accepts, or None when no rule accepts. */
  function FirstMatch<R, T>(rules: seq<R>, recognise: R -> Option<T>): (r: Option<(nat, T)>)
    ensures r.None? <==> forall i | 0 <= i < |rules| :: recognise(rules[i]).None?
    ensures r.Some? ==> r.value.0 < |rules| && recognise(rules[r.value.0]) == Some(r.value.1)
    ensures r.Some? ==> forall j | 0 <= j < r.value.0 :: recognise(rules[j]).None?
  {
    if |rules| == 0 then None
    else
      match recognise(rules[0])
      case Some(t) => Some((0, t))
      case None =>
        match FirstMatch(rules[1..], recognise)
        case None => None
        case Some((i, t)) => Some((i + 1, t))
  }

  /** The first accepting rule is the one reported: an accepting rule at
      position `i` with no accepting rule before it decides the search. */
  lemma FirstMatchAt<R, T>(rules: seq<R>, recognise: R -> Option<T>, i: nat)
    requires i < |rules| && recognise(rules[i]).Some?
    requires forall j | 0 <= j < i :: recognise(rules[j]).None?
    ensures FirstMatch(rules, recognise) == Some((i, recognise(rules[i]).value))
  {
  }

  /** Rules placed after an accepting rule are never consulted. */
  lemma FirstMatchIgnoresLaterRules<R, T>(rules: seq<R>, later: seq<R>, recognise: R -> Option<T>)
    requires FirstMatch(rules, recognise).Some?
    ensures FirstMatch(rules + later, recognise) == FirstMatch(rules, recognise)
  {
    var i := FirstMatch(rules, recognise).value.0;
    assert (rules + later)[i] == rules[i];
    forall j | 0 <= j < i
      ensures recognise((rules + later)[j]).None?
    {
      assert (rules + later)[j] == rules[j];
    }
    FirstMatchAt(rules + later, recognise, i);
  }
}

=== FILE: time_examples.dfy ===
/** Inputs of the library's test-suite for `parseTime`, worked through the
    recognisers and the handlers for any valid now. */
module TimeExamples {
  import opened Wrappers
  import opened Chars
  import opened Patterns
  import opened Calendar
  import opened Values
  import opened Heuristics
  import opened TimeParser

  /** `530` is one hour digit and two minute digits; with no meridiem the
      hour 5 is taken for the afternoon: 17:30. */
  lemma ThreeDigitRun(now: DateTime)
    requires now.Valid()
    ensures Interpret(DigitRun("530", None), now) == Moment(DateTime(now.date, 17, 30, 0, 0))
    ensures ParseTime(Text("530"), now) == Some(Moment(DateTime(now.date, 17, 30, 0, 0)))
  {
    FiveThirtySplit();
    DigitRunMeaning("530", None, now);
    BareRunParsed("530", now);
  }

  lemma FiveThirtySplit()
    ensures SplitRun("530") == ("5", 30) && AdjustForMeridiem("5", None) == 17
  {
    assert Decimal(30) == "30" && Decimal(5) == "5";
    assert "530"[1..] == "30" && "530"[..1] == "5";
  }

  /** `2` alone is two in the afternoon. */
  lemma SingleDigitRun(now: DateTime)
    requires now.Valid()
    ensures Interpret(DigitRun("2", None), now) == Moment(DateTime(now.date, 14, 0, 0, 0))
    ensures ParseTime(Text("2"), now) == Some(Moment(DateTime(now.date, 14, 0, 0, 0)))
  {
    MeridiemExamples();
    DigitRunMeaning("2", None, now);
    BareRunParsed("2", now);
  }

  /** `02`: the leading zero keeps two in the morning. */
  lemma LeadingZeroRun(now: DateTime)
    requires now.Valid()
    ensures Interpret(DigitRun("02", None), now) == Moment(DateTime(now.date, 2, 0, 0, 0))
    ensures ParseTime(Text("02"), now) == Some(Moment(DateTime(now.date, 2, 0, 0, 0)))
  {
    MeridiemExamples();
    DigitRunMeaning("02", None, now);
    BareRunParsed("02", now);
  }

  /** A run of one to four digits, alone, is read by the digit-run rule. */
  lemma BareRunParsed(digits: string, now: DateTime)
    requires now.Valid() && IsDigits(digits) && 1 <= |digits| <= 4
    ensures ParseTime(Text(digits), now) == Some(Interpret(DigitRun(digits, None), now))
  {
    TrimUnchanged(digits);
    assert digits + "" + "" == digits;
    MatchDigitRunOf(digits, "", "");
    DigitRunToken(digits, now);
  }

  /** `2a` is a digit run with the meridiem `a`, read as two in the morning. */
  lemma MorningSuffix(now: DateTime)
    requires now.Valid()
    ensures MatchDigitRun("2a") == Some(("2", Some("a")))
    ensures Interpret(DigitRun("2", Some("a")), now) == Moment(DateTime(now.date, 2, 0, 0, 0))
    ensures ParseTime(Text("2a"), now) == Some(Moment(DateTime(now.date, 2, 0, 0, 0)))
  {
    MorningText();
    MatchDigitRunOf("2", "", "a");
    MeridiemExamples();
    DigitRunMeaning("2", Some("a"), now);
    DigitRunToken("2a", now);
  }

  lemma MorningText()
    ensures "2" + "" + "a" == "2a" && Trim("2a") == "2a"
  {
    TrimUnchanged("2a");
  }

  /** The clock pattern reads the three groups of `12:42:49 PM`, an empty
      fourth group and the meridiem. */
  lemma NoonClockScanned()
    ensures MatchClock("12:42:49 PM") == Some(ClockGroups(["12", "42", "49", ""], Some("PM")))
  {
    NoonClockText();
    ClockWithSeconds("12", "42", "49", "PM");
    PmIsMeridiem();
  }

  lemma NoonClockText()
    ensures "12:42:49 PM" == "12" + ([':'] + ("42" + ([':'] + ("49" + (" " + "PM")))))
  {
  }

  lemma PmIsMeridiem()
    ensures MeridiemPrefix("PM") == Some("PM")
  {
    assert "PM"[..2] == "PM";
  }

  /** `12:42:49 PM` is not a bare digit run: the colon follows the digits. */
  lemma NoonIsNoDigitRun()
    ensures MatchDigitRun("12:42:49 PM").None?
  {
    assert "12:42:49 PM" == "12" + ":42:49 PM";
    DigitsThenSeparator("12", ":42:49 PM");
  }

  /** The handler adds twelve to 12 with `PM`: hour 24 lands on 00:42:49 of
      the next day. */
  lemma NoonClockRollsOver(now: DateTime)
    requires now.Valid()
    ensures Interpret(Clock("12", Some(42), Some(49), None, Some("PM")), now)
            == Moment(DateTime(AddDays(now.date, 1), 0, 42, 49, 0))
  {
    MeridiemExamples();
    ClockMeaning(Clock("12", Some(42), Some(49), None, Some("PM")), now);
  }

  /** `08:22:34.028 CST`: four groups, and `CST` is no meridiem. */
  lemma MillisecondClockScanned()
    ensures MatchClock("08:22:34.028 CST") == Some(ClockGroups(["08", "22", "34", "028"], None))
  {
    MillisecondClockText();
    ClockWithMilliseconds("08", "22", "34", "028", "CST");
    CstIsNoMeridiem();
  }

  lemma CstIsNoMeridiem()
    ensures MeridiemPrefix("CST").None?
  {
    assert "CST"[0] == 'C';
  }

  lemma MillisecondClockText()
    ensures "08:22:34.028 CST" == "08" + ([':'] + ("22" + ([':'] + ("34" + (['.'] + ("028" + (" " + "CST")))))))
  {
  }

  /** The leading zero keeps the hour at 8 and `028` is 28 milliseconds. */
  lemma MillisecondClockMeaning(now: DateTime)
    requires now.Valid()
    ensures Interpret(Clock("08", Some(22), Some(34), Some(28), None), now)
            == Moment(DateTime(now.date, 8, 22, 34, 28))
  {
    assert Decimal(8) == "8";
    ParseDecimalLeadingZero("8");
    assert "0" + "8" == "08";
    assert AdjustForMeridiem("08", None) == 8;
    ClockMeaning(Clock("08", Some(22), Some(34), Some(28), None), now);
  }
}

=== FILE: time_parser.dfy ===
/** `parseTime`: a fixed, ordered table of six rules over the trimmed input.
    The first rule whose pattern accepts decides the result; when none
    accepts the result is `null`. */
module TimeParser {
  import opened Wrappers
  import opened Chars
  import opened Calendar
  import opened RuleTable
  import opened Patterns
  import opened Heuristics
  import opened Values

  /** The rules of the table, one per regular expression of index.js. */
  datatype TimeRule =
    | CurrentRule        // /^c$/i
    | MinutesBackRule    // /^-(\d+)/
    | MinutesAheadRule   // /^\+(\d+)/
    | DigitRunRule       // /^(\d{1,4})\s*([ap]m?)?$/i
    | ClockRule          // /^(\d{1,2})[sep]?(\d{1,2})?[sep]?(\d{1,2})?[sep]?(\d{1,3})?[sep]?\s*([ap]m?)?/i
    | HostRule           // /xxx.*/

  const TimeRules: seq<TimeRule> := [
    CurrentRule, MinutesBackRule, MinutesAheadRule, DigitRunRule, ClockRule, HostRule
  ]

  /** What a rule hands its handler. The hour stays text, since a leading
      zero changes how it is adjusted; so does the digit run, whose length
      decides how it is split. */
  datatype TimeToken =
    | Now
    | MinutesBack(count: nat)
    | MinutesAhead(count: nat)
    | DigitRun(digits: string, meridiem: Option<string>)
    | Clock(hours: string, minutes: Option<nat>, seconds: Option<nat>,
            milliseconds: Option<nat>, meridiem: Option<string>)
    | HostText(text: string)
  {
    /** The shape the patterns guarantee of the hour and the digit run. */
    predicate WellFormed() {
      && (DigitRun? ==> IsDigits(digits) && 1 <= |digits| <= 4)
      && (Clock? ==> IsDigits(hours) && 1 <= |hours| <= 2)
    }
  }

  // ---------------------------------------------------------------------
  // Recognisers

  /** `/^(\d{1,4})\s*([ap]m?)?$/i`: the digits and the meridiem, if any. The
      digit group is the whole leading digit run, since neither white space
      nor a meridiem letter is a digit. */
  function MatchDigitRun(s: string): (r: Option<(string, Option<string>)>)
    ensures r.Some? ==> var (digits, meridiem) := r.value;
              && IsDigits(digits) && 1 <= |digits| <= 4
              && (meridiem.Some? ==> IsMeridiem(meridiem.value))
              && var tail := meridiem.GetOr("");
                 && |digits| + |tail| <= |s|
                 && s == digits + s[|digits|..|s| - |tail|] + tail
                 && AllSpace(s[|digits|..|s| - |tail|])
  {
    var k := DigitPrefixLength(s);
    var rest := s[k..];
    var tail := rest[SpacePrefixLength(rest)..];
    if 1 <= k <= 4 && (|tail| == 0 || IsMeridiem(tail)) then
      assert s[k..|s| - |tail|] == rest[..SpacePrefixLength(rest)];
      assert s == s[..k] + s[k..|s| - |tail|] + tail;
      Some((s[..k], Optional(tail)))
    else None
  }

  /** Every digit run of one to four digits, followed by white space and an
      optional meridiem, is accepted with its own pieces. */
  lemma MatchDigitRunOf(digits: string, spaces: string, meridiem: string)
    requires IsDigits(digits) && 1 <= |digits| <= 4 && AllSpace(spaces)
    requires |meridiem| == 0 || IsMeridiem(meridiem)
    ensures MatchDigitRun(digits + spaces + meridiem) == Some((digits, Optional(meridiem)))
  {
    var s := digits + spaces + meridiem;
    assert s == digits + (spaces + meridiem);
    assert |spaces + meridiem| > 0 ==> !IsDigit((spaces + meridiem)[0]) by {
      if |spaces| > 0 { assert (spaces + meridiem)[0] == spaces[0]; }
    }
    DigitPrefixOfJoin(digits, spaces + meridiem);
    assert s[|digits|..] == spaces + meridiem;
    SpacePrefixOfJoin(spaces, meridiem);
    assert (spaces + meridiem)[|spaces|..] == meridiem;
  }

  /** The run of white space at the start of `spaces + rest` is `spaces`
      when `rest` does not start with white space. */
  lemma {:induction false} SpacePrefixOfJoin(spaces: string, rest: string)
    requires AllSpace(spaces)
    requires |rest| == 0 || !IsSpace(rest[0])
    ensures SpacePrefixLength(spaces + rest) == |spaces|
    decreases |spaces|
  {
    if |spaces| == 0 {
      assert spaces + rest == rest;
    } else {
      assert (spaces + rest)[1..] == spaces[1..] + rest;
      SpacePrefixOfJoin(spaces[1..], rest);
    }
  }

  /** One digit group of the clock pattern, `(\d{1,w})?[:.,;\-]?`, read at
      position `from`: as many digits as there are, at most `width` of them,
      then one separator if one follows. Yields the group (empty when the
      group does not take part) and the position after it. */
  function ReadGroup(s: string, from: nat, width: nat): (r: (string, nat))
    requires from <= |s|
    ensures IsDigits(r.0) && |r.0| <= width
    ensures from + |r.0| <= |s| && r.0 == s[from..from + |r.0|]
    ensures |r.0| < width && from + |r.0| < |s| ==> !IsDigit(s[from + |r.0|])
    ensures width > 0 && from < |s| && IsDigit(s[from]) ==> |r.0| > 0
    ensures from + |r.0| <= r.1 <= from + |r.0| + 1 && r.1 <= |s|
    ensures r.1 == from + |r.0| + 1 ==> IsTimeSeparator(s[from + |r.0|])
  {
    var digits := DigitPrefixLength(s[from..]);
    var k := if digits <= width then digits else width;
    var j := from + k;
    assert s[from..j] == s[from..][..digits][..k];
    (s[from..j], if j < |s| && IsTimeSeparator(s[j]) then j + 1 else j)
  }

  /** A group of `k` digits at `from` is read as written when it fills its
      width or no digit follows it. */
  lemma ReadGroupOf(s: string, from: nat, width: nat, k: nat)
    requires from + k <= |s| && k <= width && IsDigits(s[from..from + k])
    requires k == width || from + k == |s| || !IsDigit(s[from + k])
    ensures ReadGroup(s, from, width).0 == s[from..from + k]
    ensures ReadGroup(s, from, width).1
            == if from + k < |s| && IsTimeSeparator(s[from + k]) then from + k + 1 else from + k
  {
    var rest := s[from..];
    var digits := DigitPrefixLength(rest);
    // The run covers the `k` digits given, and stops at `k` unless the
    // width stops it first.
    assert rest[..k] == s[from..from + k];
    assert k <= digits;
    assert k < width ==> digits <= k;
  }

  /** The same, for text `group + next` starting at `from`. */
  lemma ReadGroupAt(s: string, from: nat, width: nat, group: string, next: string)
    requires from <= |s| && s[from..] == group + next
    requires IsDigits(group) && |group| <= width
    requires |group| == width || |next| == 0 || !IsDigit(next[0])
    ensures ReadGroup(s, from, width).0 == group
    ensures ReadGroup(s, from, width).1
            == from + |group| + if |next| > 0 && IsTimeSeparator(next[0]) then 1 else 0
  {
    assert s[from..from + |group|] == s[from..][..|group|] == group;
    assert |next| > 0 ==> s[from + |group|] == next[0];
    ReadGroupOf(s, from, width, |group|);
  }

  /** The groups, meridiem included, of the clock pattern. */
  datatype ClockGroups = ClockGroups(groups: seq<string>, meridiem: Option<string>)

  /** The clock pattern: it matches every string that starts with a digit.
      Every part after the first digit is optional and there is no end
      anchor, so reading each group greedily gives the match. */
  function MatchClock(s: string): (r: Option<ClockGroups>)
    ensures r.Some? <==> |s| > 0 && IsDigit(s[0])
    ensures r.Some? ==> var g := r.value.groups;
              && |g| == 4 && IsDigits(g[0]) && 1 <= |g[0]| <= 2
              && IsDigits(g[1]) && |g[1]| <= 2 && IsDigits(g[2]) && |g[2]| <= 2
              && IsDigits(g[3]) && |g[3]| <= 3
              && |g[0]| <= |s| && g[0] == s[..|g[0]|]
              && (r.value.meridiem.Some? ==> IsMeridiem(r.value.meridiem.value))
  {
    if |s| > 0 && IsDigit(s[0]) then
      var (hours, afterHours) := ReadGroup(s, 0, 2);
      var (minutes, afterMinutes) := ReadGroup(s, afterHours, 2);
      var (seconds, afterSeconds) := ReadGroup(s, afterMinutes, 2);
      var (milliseconds, end) := ReadGroup(s, afterSeconds, 3);
      var rest := s[end..];
      var tail := rest[SpacePrefixLength(rest)..];
      Some(ClockGroups([hours, minutes, seconds, milliseconds], MeridiemPrefix(tail)))
    else None
  }

  /** The clock pattern reads its four groups one after the other, then
      skips white space before the meridiem. */
  lemma MatchClockOfGroups(s: string, groups: seq<string>, ends: seq<nat>)
    requires |s| > 0 && IsDigit(s[0]) && |groups| == 4 && |ends| == 4
    requires ReadGroup(s, 0, 2) == (groups[0], ends[0])
    requires ends[0] <= |s| && ReadGroup(s, ends[0], 2) == (groups[1], ends[1])
    requires ends[1] <= |s| && ReadGroup(s, ends[1], 2) == (groups[2], ends[2])
    requires ends[2] <= |s| && ReadGroup(s, ends[2], 3) == (groups[3], ends[3])
    requires ends[3] <= |s|
    ensures var rest := s[ends[3]..];
            MatchClock(s) == Some(ClockGroups(groups, MeridiemPrefix(rest[SpacePrefixLength(rest)..])))
  {
    assert groups == [groups[0], groups[1], groups[2], groups[3]];
  }

  /** `hh:mm:ss`, one space and a suffix: three groups, an empty fourth,
      and the meridiem the suffix starts with. */
  lemma ClockWithSeconds(h: string, m: string, sec: string, suffix: string)
    requires IsDigits(h) && IsDigits(m) && IsDigits(sec) && |h| == 2 && |m| == 2 && |sec| == 2
    requires |suffix| == 0 || !IsSpace(suffix[0])
    ensures var s := h + ([':'] + (m + ([':'] + (sec + (" " + suffix)))));
            MatchClock(s) == Some(ClockGroups([h, m, sec, ""], MeridiemPrefix(suffix)))
  {
    var rest := " " + suffix;
    var s := h + ([':'] + (m + ([':'] + (sec + rest))));
    ClockGroupsRead(h, m, [':'] + (sec + rest));
    assert ([':'] + (sec + rest))[1..] == sec + rest;
    ReadLastGroups(s, sec, rest);
    MatchClockOfGroups(s, [h, m, sec, ""], [3, 6, 8, 8]);
    SpacedMeridiem(suffix);
  }

  /** `hh:mm:ss` and nothing after: three groups, an empty fourth, and no
      meridiem. */
  lemma ClockWithoutSuffix(h: string, m: string, sec: string)
    requires IsDigits(h) && IsDigits(m) && IsDigits(sec) && |h| == 2 && |m| == 2 && |sec| == 2
    ensures MatchClock(h + ([':'] + (m + ([':'] + sec)))) == Some(ClockGroups([h, m, sec, ""], None))
  {
    var s := h + ([':'] + (m + ([':'] + sec)));
    ClockGroupsRead(h, m, [':'] + sec);
    assert ([':'] + sec)[1..] == sec + "";
    ReadLastGroups(s, sec, "");
    MatchClockOfGroups(s, [h, m, sec, ""], [3, 6, 8, 8]);
  }

  /** The first two groups of `hh:mm` and a separator. */
  lemma ClockGroupsRead(h: string, m: string, next: string)
    requires IsDigits(h) && IsDigits(m) && |h| == 2 && |m| == 2
    requires |next| > 0 && IsTimeSeparator(next[0])
    ensures var s := h + ([':'] + (m + next));
            && |s| > 0 && IsDigit(s[0]) && |s| >= 6 && s[6..] == next[1..]
            && ReadGroup(s, 0, 2) == (h, 3) && ReadGroup(s, 3, 2) == (m, 6)
  {
    var t1 := [':'] + (m + next);
    var s := h + t1;
    assert s[0] == h[0];
    assert s[0..] == s;
    ReadGroupAt(s, 0, 2, h, t1);
    assert s[3..] == m + next by { assert s[2..] == t1 && t1[1..] == m + next; }
    ReadGroupAt(s, 3, 2, m, next);
    assert s[6..] == next[1..] by { assert s[3..][3..] == s[6..]; assert (m + next)[3..] == next[1..]; }
  }

  /** The third group, followed by text that neither continues it nor
      separates it, and an empty fourth group. */
  lemma ReadLastGroups(s: string, sec: string, rest: string)
    requires |s| >= 6 && s[6..] == sec + rest && IsDigits(sec) && |sec| == 2
    requires |rest| == 0 || (!IsDigit(rest[0]) && !IsTimeSeparator(rest[0]))
    ensures ReadGroup(s, 6, 2) == (sec, 8) && ReadGroup(s, 8, 3) == ("", 8) && s[8..] == rest
  {
    ReadGroupAt(s, 6, 2, sec, rest);
    assert s[8..] == "" + rest by { assert s[6..][2..] == s[8..]; }
    ReadGroupAt(s, 8, 3, "", rest);
  }

  /** `hh:mm:ss.fff`, one space and a suffix: four groups, and the
      meridiem the suffix starts with. */
  lemma ClockWithMilliseconds(h: string, m: string, sec: string, ms: string, suffix: string)
    requires IsDigits(h) && IsDigits(m) && IsDigits(sec) && IsDigits(ms)
    requires |h| == 2 && |m| == 2 && |sec| == 2 && |ms| == 3
    requires |suffix| == 0 || !IsSpace(suffix[0])
    ensures var s := h + ([':'] + (m + ([':'] + (sec + (['.'] + (ms + (" " + suffix)))))));
            MatchClock(s) == Some(ClockGroups([h, m, sec, ms], MeridiemPrefix(suffix)))
  {
    var rest := " " + suffix;
    var s := h + ([':'] + (m + ([':'] + (sec + (['.'] + (ms + rest))))));
    ClockGroupsRead(h, m, [':'] + (sec + (['.'] + (ms + rest))));
    assert ([':'] + (sec + (['.'] + (ms + rest))))[1..] == sec + (['.'] + (ms + rest));
    ReadFractionGroups(s, sec, ms, rest);
    MatchClockOfGroups(s, [h, m, sec, ms], [3, 6, 9, 12]);
    SpacedMeridiem(suffix);
  }

  /** The third group, a separator, and a fourth group of three digits
      followed by text that neither continues it nor separates it. */
  lemma ReadFractionGroups(s: string, sec: string, ms: string, rest: string)
    requires |s| >= 6 && s[6..] == sec + (['.'] + (ms + rest))
    requires IsDigits(sec) && |sec| == 2 && IsDigits(ms) && |ms| == 3
    requires |rest| == 0 || (!IsDigit(rest[0]) && !IsTimeSeparator(rest[0]))
    ensures ReadGroup(s, 6, 2) == (sec, 9) && ReadGroup(s, 9, 3) == (ms, 12) && s[12..] == rest
  {
    var t3 := ['.'] + (ms + rest);
    ReadGroupAt(s, 6, 2, sec, t3);
    assert s[9..] == ms + rest by { assert s[6..][3..] == s[9..]; assert (sec + t3)[3..] == ms + rest; }
    ReadGroupAt(s, 9, 3, ms, rest);
    assert s[12..] == rest by { assert s[9..][3..] == s[12..]; }
  }

  /** Digits followed by a separator are no bare digit run. */
  lemma DigitsThenSeparator(digits: string, rest: string)
    requires IsDigits(digits) && |rest| > 0 && IsTimeSeparator(rest[0])
    ensures MatchDigitRun(digits + rest).None?
  {
    DigitPrefixOfJoin(digits, rest);
    assert (digits + rest)[|digits|..] == rest;
  }

  /** One space before the rest: the meridiem is read from the rest. */
  lemma SpacedMeridiem(rest: string)
    requires |rest| == 0 || !IsSpace(rest[0])
    ensures var s := " " + rest; MeridiemPrefix(s[SpacePrefixLength(s)..]) == MeridiemPrefix(rest)
  {
    SpacePrefixOfJoin(" ", rest);
    assert (" " + rest)[1..] == rest;
  }

  /** An optional clock group as the handler reads it: absent when empty,
      its decimal value otherwise. */
  function OptionalNumber(group: string): (r: Option<nat>)
    requires IsDigits(group)
    ensures r.None? <==> |group| == 0
    ensures r.Some? ==> r.value == ParseDecimal(group)
  {
    if |group| == 0 then None else Some(ParseDecimal(group))
  }

  /** The groups of the clock pattern as its handler reads them. */
  function ClockTokenOf(c: ClockGroups): (r: TimeToken)
    requires |c.groups| == 4 && IsDigits(c.groups[0]) && 1 <= |c.groups[0]| <= 2
    requires IsDigits(c.groups[1]) && IsDigits(c.groups[2]) && IsDigits(c.groups[3])
    ensures r.Clock? && r.WellFormed() && r.hours == c.groups[0] && r.meridiem == c.meridiem
    ensures r.minutes.GetOr(0) == ParseDecimal(c.groups[1])
    ensures r.seconds.GetOr(0) == ParseDecimal(c.groups[2])
    ensures r.milliseconds.GetOr(0) == ParseDecimal(c.groups[3])
  {
    Clock(c.groups[0], OptionalNumber(c.groups[1]), OptionalNumber(c.groups[2]),
          OptionalNumber(c.groups[3]), c.meridiem)
  }

  /** The recogniser of each rule: the token its pattern captures from the
      trimmed input, or None when the pattern does not match. */
  function Recognise(rule: TimeRule, s: string): (r: Option<TimeToken>)
    ensures r.Some? ==> r.value.WellFormed()
    ensures rule == HostRule ==> (r.Some? <==> Contains(s, "xxx"))
    ensures r.Some? && r.value.HostText? ==> rule == HostRule && r.value.text == s
  {
    match rule
    case CurrentRule => if IsLetter(s, 'c', 'C') then Some(Now) else None
    case MinutesBackRule =>
      (match SignedCount(s, '-') case Some(n) => Some(MinutesBack(ParseDecimal(n))) case None => None)
    case MinutesAheadRule =>
      (match SignedCount(s, '+') case Some(n) => Some(MinutesAhead(ParseDecimal(n))) case None => None)
    case DigitRunRule =>
      (match MatchDigitRun(s) case Some((d, m)) => Some(DigitRun(d, m)) case None => None)
    case ClockRule =>
      (match MatchClock(s) case Some(c) => Some(ClockTokenOf(c)) case None => None)
    case HostRule => if Contains(s, "xxx") then Some(HostText(s)) else None
  }

  /** The recogniser of the table applied to one trimmed input. */
  function RecogniserFor(s: string): TimeRule -> Option<TimeToken> {
    rule => Recognise(rule, s)
  }

  // ---------------------------------------------------------------------
  // Handlers

  /** The `switch` on the length of a digit run: one or two digits are the
      hour alone, three are one hour digit and two minute digits, four are
      two and two. */
  function SplitRun(digits: string): (r: (string, nat))
    requires IsDigits(digits) && 1 <= |digits| <= 4
    ensures IsDigits(r.0) && 1 <= |r.0| <= 2 && |r.0| <= |digits| && r.0 == digits[..|r.0|]
    ensures |digits| <= 2 ==> r == (digits, 0)
    ensures |digits| > 2 ==> |r.0| == |digits| - 2
  {
    if |digits| <= 2 then (digits, 0)
    else
      var h := |digits| - 2;
      assert IsDigits(digits[h..]);
      (digits[..h], ParseDecimal(digits[h..]))
  }

  /** The handler of each rule, applied to the captured token and to now. */
  function Interpret(token: TimeToken, now: DateTime): (r: Outcome)
    requires token.WellFormed() && now.Valid()
    ensures r.Moment? ==> r.moment.Valid()
    ensures !r.Native?
    ensures r.NativeTime? <==> token.HostText?
    ensures r.NativeTime? ==> r.today == now.date
  {
    match token
    case Now => Moment(now)
    case MinutesBack(n) => Moment(SetMinutes(now, now.minute - n, 0, 0))
    case MinutesAhead(n) => Moment(SetMinutes(now, now.minute + n, 0, 0))
    case DigitRun(d, m) =>
      var (hour, minutes) := SplitRun(d);
      Moment(SetHours(now, AdjustForMeridiem(hour, m), minutes, 0, 0))
    case Clock(h, mi, se, ms, m) =>
      Moment(SetHours(now, AdjustForMeridiem(h, m), mi.GetOr(0), se.GetOr(0), ms.GetOr(0)))
    case HostText(text) => NativeTime(text, now.date)
  }

  /** `parseTime(input)`: a valid `Date` passes through; anything else is
      turned into a string, trimmed and handed to the rule table. Which rule
      decides is stated by FirstAcceptingRuleDecides,
      NullExactlyWhenNoRuleAccepts and HostExactlyForXxx. */
  function ParseTime(input: Input, now: DateTime): (r: Option<Outcome>)
    requires now.Valid() && input.Valid()
    ensures input.Given? ==> r == Some(Moment(input.moment))
    ensures r.Some? ==> !r.value.Native?
    ensures r.Some? && r.value.Moment? ==> r.value.moment.Valid()
  {
    if input.Given? then Some(Moment(input.moment))
    else ApplyTimeRules(Trim(TextOf(input)), now)
  }

  /** The loop of `parseTime`: the first rule of the table that accepts the
      trimmed text decides; None stands for the `null` returned when no rule
      accepts. */
  function ApplyTimeRules(s: string, now: DateTime): (r: Option<Outcome>)
    requires now.Valid()
    ensures r.None? <==> forall j | 0 <= j < |TimeRules| :: Recognise(TimeRules[j], s).None?
    ensures r.Some? ==> !r.value.Native?
    ensures r.Some? && r.value.Moment? ==> r.value.moment.Valid()
    ensures r.Some? && r.value.NativeTime? ==>
              && r.value == NativeTime(s, now.date) && Contains(s, "xxx")
              && forall j | 0 <= j < 5 :: Recognise(TimeRules[j], s).None?
  {
    TimeTableMatch(s);
    match FirstMatch(TimeRules, RecogniserFor(s))
    case None => None
    case Some((i, token)) =>
      DecidingToken(s, now, i, token);
      Some(Interpret(token, now))
  }

  /** What the deciding rule's handler yields: never the date parser's host
      result, a valid moment, or host text only when the `xxx` rule decides
      after the five patterns rejected. */
  lemma DecidingToken(s: string, now: DateTime, i: nat, token: TimeToken)
    requires now.Valid() && i < |TimeRules| && Recognise(TimeRules[i], s) == Some(token)
    requires forall j | 0 <= j < i :: Recognise(TimeRules[j], s).None?
    ensures var o := Interpret(token, now);
            && !o.Native?
            && (o.Moment? ==> o.moment.Valid())
            && (o.NativeTime? ==>
                  && o == NativeTime(s, now.date) && Contains(s, "xxx")
                  && forall j | 0 <= j < 5 :: Recognise(TimeRules[j], s).None?)
  {
    // Only the last rule, `xxx`, yields host text.
    if token.HostText? { HostTokenFromXxx(s, i, token); }
  }

  /** The first match over the time table, stated rule by rule. */
  lemma TimeTableMatch(s: string)
    ensures var m := FirstMatch(TimeRules, RecogniserFor(s));
            && (m.None? <==> forall j | 0 <= j < |TimeRules| :: Recognise(TimeRules[j], s).None?)
            && (m.Some? ==> && m.value.0 < |TimeRules| && Recognise(TimeRules[m.value.0], s) == Some(m.value.1)
                            && forall j | 0 <= j < m.value.0 :: Recognise(TimeRules[j], s).None?)
  {
  }

  /** Host text is the token of the `xxx` rule alone, and it is the whole
      text. */
  lemma HostTokenFromXxx(s: string, i: nat, token: TimeToken)
    requires i < |TimeRules| && Recognise(TimeRules[i], s) == Some(token) && token.HostText?
    ensures i == 5 && token == HostText(s) && Contains(s, "xxx")
  {
    if i < 5 { NotHostRule(i); }
  }

  // ---------------------------------------------------------------------
  // Rule order

  /** The first rule that accepts the trimmed text decides the result. */
  lemma FirstAcceptingRuleDecides(raw: string, now: DateTime, i: nat, token: TimeToken)
    requires now.Valid()
    requires i < |TimeRules| && Recognise(TimeRules[i], Trim(raw)) == Some(token)
    requires forall j | 0 <= j < i :: Recognise(TimeRules[j], Trim(raw)).None?
    ensures ParseTime(Text(raw), now) == Some(Interpret(token, now))
  {
    FirstMatchAt(TimeRules, RecogniserFor(Trim(raw)), i);
  }

  /** Text none of the five patterns before `xxx` accepts: it is not the
      letter c, not a signed count, and does not start with a digit. */
  predicate NoTimePattern(s: string) {
    && !IsLetter(s, 'c', 'C')
    && SignedCount(s, '-').None? && SignedCount(s, '+').None?
    && !(|s| > 0 && IsDigit(s[0]))
  }

  /** The digit-run pattern only accepts text that starts with a digit. */
  lemma DigitRunNeedsDigit(s: string)
    ensures MatchDigitRun(s).Some? ==> |s| > 0 && IsDigit(s[0])
  {
    if MatchDigitRun(s).Some? {
      var (digits, m) := MatchDigitRun(s).value;
      var tail := m.GetOr("");
      assert s[0] == (digits + s[|digits|..|s| - |tail|] + tail)[0] == digits[0];
    }
  }

  /** The five patterns all reject exactly the text NoTimePattern describes. */
  lemma PatternsRejectExactly(s: string)
    ensures (forall j | 0 <= j < 5 :: Recognise(TimeRules[j], s).None?) <==> NoTimePattern(s)
  {
    if NoTimePattern(s) {
      DigitRunNeedsDigit(s);
      assert Recognise(CurrentRule, s).None? && Recognise(MinutesBackRule, s).None?;
      assert Recognise(MinutesAheadRule, s).None? && Recognise(DigitRunRule, s).None?;
      assert Recognise(ClockRule, s).None?;
      forall j | 0 <= j < 5 ensures Recognise(TimeRules[j], s).None? {
        NotHostRule(j);
      }
    } else if IsLetter(s, 'c', 'C') {
      assert Recognise(TimeRules[0], s).Some?;
    } else if SignedCount(s, '-').Some? {
      assert Recognise(TimeRules[1], s).Some?;
    } else if SignedCount(s, '+').Some? {
      assert Recognise(TimeRules[2], s).Some?;
    } else {
      assert Recognise(TimeRules[4], s).Some?;
    }
  }

  /** `xxx` comes last in the table. */
  lemma NotHostRule(i: nat)
    requires i < 5
    ensures TimeRules[i] != HostRule
    ensures TimeRules[i] in {CurrentRule, MinutesBackRule, MinutesAheadRule, DigitRunRule, ClockRule}
  {
  }

  /** `parseTime` returns null exactly when no rule accepts: the text is not
      the letter c, not a signed count, does not start with a digit and
      holds no `xxx`. */
  lemma NullExactlyWhenNoRuleAccepts(raw: string, now: DateTime)
    requires now.Valid()
    ensures ParseTime(Text(raw), now).None? <==> NoTimePattern(Trim(raw)) && !Contains(Trim(raw), "xxx")
  {
    var s := Trim(raw);
    PatternsRejectExactly(s);
    if !NoTimePattern(s) {
      var j :| 0 <= j < 5 && Recognise(TimeRules[j], s).Some?;
      PatternBeatsHost(raw, now, j);
    } else if Contains(s, "xxx") {
      HostToken(raw, now);
    } else {
      NoRuleAccepts(raw, now);
    }
  }

  /** The host's parsing is reached exactly when no pattern before `xxx`
      accepts and the text holds `xxx`; it receives the trimmed text and
      the current date. */
  lemma HostExactlyForXxx(raw: string, now: DateTime)
    requires now.Valid()
    ensures (ParseTime(Text(raw), now).Some? && ParseTime(Text(raw), now).value.NativeTime?)
            <==> NoTimePattern(Trim(raw)) && Contains(Trim(raw), "xxx")
    ensures ParseTime(Text(raw), now).Some? && ParseTime(Text(raw), now).value.NativeTime?
            ==> ParseTime(Text(raw), now).value == NativeTime(Trim(raw), now.date)
  {
    var s := Trim(raw);
    PatternsRejectExactly(s);
    if !NoTimePattern(s) {
      var j :| 0 <= j < 5 && Recognise(TimeRules[j], s).Some?;
      PatternBeatsHost(raw, now, j);
    } else if Contains(s, "xxx") {
      HostToken(raw, now);
    } else {
      NoRuleAccepts(raw, now);
    }
  }

  /** The `xxx` pattern has no anchor: an `xxx` anywhere in text that no
      earlier pattern accepts sends it to the host's parsing. */
  lemma XxxAnywhereIsHost(raw: string, now: DateTime, i: nat)
    requires now.Valid() && NoTimePattern(Trim(raw))
    requires OccursAt(Trim(raw), "xxx", i)
    ensures ParseTime(Text(raw), now) == Some(NativeTime(Trim(raw), now.date))
  {
    ContainsAt(Trim(raw), "xxx", i);
    HostExactlyForXxx(raw, now);
  }

  /** With every pattern rejecting, the result is null. */
  lemma NoRuleAccepts(raw: string, now: DateTime)
    requires now.Valid()
    requires forall j | 0 <= j < 5 :: Recognise(TimeRules[j], Trim(raw)).None?
    requires !Contains(Trim(raw), "xxx")
    ensures ParseTime(Text(raw), now).None?
  {
    var s := Trim(raw);
    assert Recognise(TimeRules[5], s).None?;
    assert forall j | 0 <= j < |TimeRules| :: RecogniserFor(s)(TimeRules[j]).None?;
  }

  /** With the five patterns rejecting and `xxx` present, the trimmed text
      goes to the host. */
  lemma HostToken(raw: string, now: DateTime)
    requires now.Valid()
    requires forall j | 0 <= j < 5 :: Recognise(TimeRules[j], Trim(raw)).None?
    requires Contains(Trim(raw), "xxx")
    ensures ParseTime(Text(raw), now) == Some(NativeTime(Trim(raw), now.date))
  {
    var s := Trim(raw);
    assert Interpret(HostText(s), now) == NativeTime(s, now.date);
    assert Recognise(TimeRules[5], s) == Some(HostText(s));
    FirstAcceptingRuleDecides(raw, now, 5, HostText(s));
  }

  /** A pattern before `xxx` that accepts makes the result a moment,
      whichever rule ends up deciding. */
  lemma PatternBeatsHost(raw: string, now: DateTime, j: nat)
    requires now.Valid()
    requires j < 5 && Recognise(TimeRules[j], Trim(raw)).Some?
    ensures ParseTime(Text(raw), now).Some? && ParseTime(Text(raw), now).value.Moment?
  {
    var i, token := FirstPattern(Trim(raw), j);
    FirstAcceptingRuleDecides(raw, now, i, token);
  }

  /** The rule the search settles on when pattern `j` accepts: it comes no
      later than `j`, so it is not `xxx`. */
  lemma FirstPattern(s: string, j: nat) returns (i: nat, token: TimeToken)
    requires j < 5 && Recognise(TimeRules[j], s).Some?
    ensures i <= j && Recognise(TimeRules[i], s) == Some(token) && !token.HostText?
    ensures token.WellFormed()
    ensures forall k | 0 <= k < i :: Recognise(TimeRules[k], s).None?
  {
    assert RecogniserFor(s)(TimeRules[j]).Some?;
    var first := FirstMatch(TimeRules, RecogniserFor(s)).value;
    i, token := first.0, first.1;
    assert i <= j;
    NotHostRule(i);
  }

  /** Surrounding white space never matters: the parser trims first. */
  lemma SurroundingSpaceIgnored(raw: string, now: DateTime)
    requires now.Valid()
    ensures ParseTime(Text(Trim(raw)), now) == ParseTime(Text(raw), now)
  {
    TrimIdempotent(raw);
    TextGoesToRules(raw, now);
    TextGoesToRules(Trim(raw), now);
  }

  /** A text input is trimmed and handed to the rule table. */
  lemma TextGoesToRules(raw: string, now: DateTime)
    requires now.Valid()
    ensures ParseTime(Text(raw), now) == ApplyTimeRules(Trim(raw), now)
  {
  }

  // ---------------------------------------------------------------------
  // The letter c and minute offsets

  /** `c`, in either case, is the current moment. */
  lemma CurrentTime(raw: string, now: DateTime)
    requires now.Valid() && IsLetter(Trim(raw), 'c', 'C')
    ensures ParseTime(Text(raw), now) == Some(Moment(now))
  {
    assert Recognise(TimeRules[0], Trim(raw)) == Some(Now);
    FirstAcceptingRuleDecides(raw, now, 0, Now);
  }

  /** `-N` is captured by its own rule with the whole digit run. */
  lemma MinutesBackRecognised(s: string)
    requires SignedCount(s, '-').Some?
    ensures Recognise(TimeRules[1], s) == Some(MinutesBack(ParseDecimal(SignedCount(s, '-').value)))
    ensures Recognise(TimeRules[0], s).None?
  {
  }

  /** `+N` is captured by its own rule with the whole digit run. */
  lemma MinutesAheadRecognised(s: string)
    requires SignedCount(s, '+').Some?
    ensures Recognise(TimeRules[2], s) == Some(MinutesAhead(ParseDecimal(SignedCount(s, '+').value)))
    ensures forall j | 0 <= j < 2 :: Recognise(TimeRules[j], s).None?
  {
    assert Recognise(TimeRules[1], s).None?;
  }

  lemma MinutesBackToken(raw: string, now: DateTime)
    requires now.Valid() && SignedCount(Trim(raw), '-').Some?
    ensures ParseTime(Text(raw), now)
            == Some(Interpret(MinutesBack(ParseDecimal(SignedCount(Trim(raw), '-').value)), now))
  {
    MinutesBackRecognised(Trim(raw));
    FirstAcceptingRuleDecides(raw, now, 1, MinutesBack(ParseDecimal(SignedCount(Trim(raw), '-').value)));
  }

  lemma MinutesAheadToken(raw: string, now: DateTime)
    requires now.Valid() && SignedCount(Trim(raw), '+').Some?
    ensures ParseTime(Text(raw), now)
            == Some(Interpret(MinutesAhead(ParseDecimal(SignedCount(Trim(raw), '+').value)), now))
  {
    MinutesAheadRecognised(Trim(raw));
    FirstAcceptingRuleDecides(raw, now, 2, MinutesAhead(ParseDecimal(SignedCount(Trim(raw), '+').value)));
  }

  /** A minute offset moves the current moment by whole minutes and drops
      its seconds and milliseconds. */
  lemma MinutesBackMeaning(count: nat, now: DateTime)
    requires now.Valid()
    ensures var r := Interpret(MinutesBack(count), now);
            && r.Moment? && r.moment.second == 0 && r.moment.millisecond == 0
            && TimeValue(r.moment) == TimeValue(now) - count * MsPerMinute
                                      - now.second * MsPerSecond - now.millisecond
  {
    SetMinutesWholeMinute(now, now.minute - count);
  }

  /** `+N` counterpart of MinutesBackMeaning. */
  lemma MinutesAheadMeaning(count: nat, now: DateTime)
    requires now.Valid()
    ensures var r := Interpret(MinutesAhead(count), now);
            && r.Moment? && r.moment.second == 0 && r.moment.millisecond == 0
            && TimeValue(r.moment) == TimeValue(now) + count * MsPerMinute
                                      - now.second * MsPerSecond - now.millisecond
  {
    SetMinutesWholeMinute(now, now.minute + count);
  }

  /** `-N` and `+N`, read through the table: N minutes before or after the
      current moment, on a whole minute. */
  lemma MinuteOffsets(raw: string, now: DateTime)
    requires now.Valid()
    ensures SignedCount(Trim(raw), '-').Some? ==>
              var n := ParseDecimal(SignedCount(Trim(raw), '-').value);
              ParseTime(Text(raw), now) == Some(Interpret(MinutesBack(n), now))
              && TimeValue(Interpret(MinutesBack(n), now).moment)
                 == TimeValue(now) - n * MsPerMinute - now.second * MsPerSecond - now.millisecond
    ensures SignedCount(Trim(raw), '+').Some? ==>
              var n := ParseDecimal(SignedCount(Trim(raw), '+').value);
              ParseTime(Text(raw), now) == Some(Interpret(MinutesAhead(n), now))
              && TimeValue(Interpret(MinutesAhead(n), now).moment)
                 == TimeValue(now) + n * MsPerMinute - now.second * MsPerSecond - now.millisecond
  {
    var s := Trim(raw);
    if SignedCount(s, '-').Some? {
      MinutesBackToken(raw, now);
      MinutesBackMeaning(ParseDecimal(SignedCount(s, '-').value), now);
    }
    if SignedCount(s, '+').Some? {
      MinutesAheadToken(raw, now);
      MinutesAheadMeaning(ParseDecimal(SignedCount(s, '+').value), now);
    }
  }

  // ---------------------------------------------------------------------
  // Digit runs

  /** A digit run accepted by its pattern passes the rules before it. */
  lemma DigitRunRecognised(s: string)
    requires MatchDigitRun(s).Some?
    ensures Recognise(TimeRules[3], s) == Some(DigitRun(MatchDigitRun(s).value.0, MatchDigitRun(s).value.1))
    ensures forall j | 0 <= j < 3 :: Recognise(TimeRules[j], s).None?
  {
    DigitRunNeedsDigit(s);
    LeadingDigitSkipsEarlyRules(s);
  }

  lemma DigitRunToken(raw: string, now: DateTime)
    requires now.Valid() && MatchDigitRun(Trim(raw)).Some?
    ensures var (digits, meridiem) := MatchDigitRun(Trim(raw)).value;
            ParseTime(Text(raw), now) == Some(Interpret(DigitRun(digits, meridiem), now))
  {
    var (digits, meridiem) := MatchDigitRun(Trim(raw)).value;
    DigitRunRecognised(Trim(raw));
    FirstAcceptingRuleDecides(raw, now, 3, DigitRun(digits, meridiem));
  }

  /** Splitting a run of three or four digits loses nothing: the hour
      digits followed by the two minute digits read as the whole run. */
  lemma SplitRunValue(digits: string)
    requires IsDigits(digits) && 3 <= |digits| <= 4
    ensures var (hour, minutes) := SplitRun(digits);
            minutes < 100 && ParseDecimal(digits) == ParseDecimal(hour) * 100 + minutes
  {
    var h := |digits| - 2;
    var (hour, last) := (digits[..h], digits[h..]);
    assert digits == hour + last;
    ParseDecimalAppend(hour, last);
    assert Pow10(2) == 100;
    DecimalPrefixBound(last, 2);
  }

  /** A digit run sets the clock of the current day to the adjusted hour
      and the minutes it spells, with no seconds; fields within their
      ranges are kept as they are. */
  lemma DigitRunMeaning(digits: string, meridiem: Option<string>, now: DateTime)
    requires now.Valid() && IsDigits(digits) && 1 <= |digits| <= 4
    ensures var (hour, minutes) := SplitRun(digits);
            var h := AdjustForMeridiem(hour, meridiem);
            var r := Interpret(DigitRun(digits, meridiem), now);
            && r.Moment?
            && TimeValue(r.moment) == DayNumber(now.date) * MsPerDay + h * MsPerHour + minutes * MsPerMinute
            && (h < 24 && minutes < 60 ==> r.moment == DateTime(now.date, h, minutes, 0, 0))
  {
    var (hour, minutes) := SplitRun(digits);
    var h := AdjustForMeridiem(hour, meridiem);
    if h < 24 && minutes < 60 {
      SetHoursInRange(now, h, minutes, 0, 0);
    }
  }

  // ---------------------------------------------------------------------
  // The clock form

  /** Text that starts with a digit but is not a bare digit run reaches the
      clock pattern, which accepts it. */
  lemma ClockRecognised(s: string)
    requires |s| > 0 && IsDigit(s[0]) && MatchDigitRun(s).None?
    ensures MatchClock(s).Some?
    ensures Recognise(TimeRules[4], s) == Some(ClockTokenOf(MatchClock(s).value))
    ensures forall j | 0 <= j < 4 :: Recognise(TimeRules[j], s).None?
  {
    ClockRuleAccepts(s);
    LeadingDigitSkipsEarlyRules(s);
    DigitRunRuleRejects(s);
  }

  lemma ClockRuleAccepts(s: string)
    requires |s| > 0 && IsDigit(s[0])
    ensures MatchClock(s).Some?
    ensures Recognise(TimeRules[4], s) == Some(ClockTokenOf(MatchClock(s).value))
  {
    assert TimeRules[4] == ClockRule;
  }

  lemma DigitRunRuleRejects(s: string)
    requires MatchDigitRun(s).None?
    ensures Recognise(TimeRules[3], s).None?
  {
    assert TimeRules[3] == DigitRunRule;
  }

  /** Text that starts with a digit passes the letter and the signed-count
      rules. */
  lemma LeadingDigitSkipsEarlyRules(s: string)
    requires |s| > 0 && IsDigit(s[0])
    ensures forall j | 0 <= j < 3 :: Recognise(TimeRules[j], s).None?
  {
    assert Recognise(TimeRules[0], s).None? && Recognise(TimeRules[1], s).None?;
    assert Recognise(TimeRules[2], s).None?;
  }

  lemma ClockToken(raw: string, now: DateTime)
    requires now.Valid() && |Trim(raw)| > 0 && IsDigit(Trim(raw)[0]) && MatchDigitRun(Trim(raw)).None?
    ensures MatchClock(Trim(raw)).Some?
    ensures ParseTime(Text(raw), now) == Some(Interpret(ClockTokenOf(MatchClock(Trim(raw)).value), now))
  {
    ClockRecognised(Trim(raw));
    FirstAcceptingRuleDecides(raw, now, 4, ClockTokenOf(MatchClock(Trim(raw)).value));
  }

  /** Text that starts with a digit is always read as a moment: by the digit
      run rule when it is one, by the clock rule otherwise. */
  lemma LeadingDigitIsMoment(raw: string, now: DateTime)
    requires now.Valid() && |Trim(raw)| > 0 && IsDigit(Trim(raw)[0])
    ensures ParseTime(Text(raw), now).Some? && ParseTime(Text(raw), now).value.Moment?
  {
    if MatchDigitRun(Trim(raw)).Some? {
      DigitRunRecognised(Trim(raw));
      PatternBeatsHost(raw, now, 3);
    } else {
      ClockRecognised(Trim(raw));
      PatternBeatsHost(raw, now, 4);
    }
  }

  /** The clock form sets the clock of the current day to the adjusted hour
      and the groups that took part, absent groups counting as zero; an hour
      of 24 to 47 lands on the next day. */
  lemma ClockMeaning(token: TimeToken, now: DateTime)
    requires now.Valid() && token.Clock? && token.WellFormed()
    ensures var h := AdjustForMeridiem(token.hours, token.meridiem);
            var (mi, se, ms) := (token.minutes.GetOr(0), token.seconds.GetOr(0), token.milliseconds.GetOr(0));
            var r := Interpret(token, now);
            && r.Moment?
            && (h < 24 && mi < 60 && se < 60 && ms < 1000 ==> r.moment == DateTime(now.date, h, mi, se, ms))
            && (24 <= h < 48 && mi < 60 && se < 60 && ms < 1000 ==>
                  r.moment == DateTime(AddDays(now.date, 1), h - 24, mi, se, ms))
  {
    var h := AdjustForMeridiem(token.hours, token.meridiem);
    var (mi, se, ms) := (token.minutes.GetOr(0), token.seconds.GetOr(0), token.milliseconds.GetOr(0));
    if h < 24 && mi < 60 && se < 60 && ms < 1000 {
      SetHoursInRange(now, h, mi, se, ms);
    }
    if 24 <= h < 48 && mi < 60 && se < 60 && ms < 1000 {
      var r := SetHours(now, h, mi, se, ms);
      var next := DateTime(AddDays(now.date, 1), h - 24, mi, se, ms);
      assert TimeValue(r) == TimeValue(next);
      TimeValueInjective(r, next);
    }
  }
}

=== FILE: values.dfy ===
/** The values that cross the public operations: what a caller passes in
    and what a parser hands back. */
module Values {
  import opened Calendar

  /** A parser input: a `Date` object holding a moment, an Invalid Date, or
      a string. A number enters as its decimal text, which is what
      `toString()` makes of it. */
  datatype Input = Given(moment: DateTime) | InvalidDate | Text(text: string) {
    /** A `Date` object that is not an Invalid Date denotes a valid moment. */
    predicate Valid() {
      Given? ==> moment.Valid()
    }
  }

  /** `input.toString()` for an input that is not a valid `Date`: an Invalid
      Date prints as `Invalid Date`. */
  function TextOf(input: Input): string
    requires !input.Given?
  {
    match input
    case InvalidDate => "Invalid Date"
    case Text(t) => t
  }

  /** A parser result: a moment computed by a rule of the table, or a value
      of the host's own date parsing (`Date.parse` / `new Date(text)`), which
      lies outside this model. `Native` is what `parseDate`'s catch-all
      makes of `text`; `NativeTime` is what the `xxx` rule of `parseTime`
      makes of `text`, whose second attempt prefixes the date `today`. */
  datatype Outcome =
    | Moment(moment: DateTime)
    | Native(text: string)
    | NativeTime(text: string, today: Date)
}

=== FILE: wrappers.dfy ===
/** Failure-compatible option type used for "no match" results and for the
    optional capture groups of the recognisers. */
module Wrappers {

  datatype Option<+T> = None | Some(value: T) {

    /** Returns the value held in Some, or `default` for None. */
    function GetOr(default: T): T {
      match this
      case Some(v) => v
      case None => default
    }
  }
}
